=== FILE: README.md ===
# Airbnb listing scraper: extraction and persistence core, in Dafny

This project models the two halves of the scraper's core:

- **The spider's `parse_listing`.** It turns one listing page into one `AirbnbListingItem`.
  - It picks the first embedded `application/json` script whose decoded value passes the `'data' … 'presentation'` test.
  - If such a script exists and opens, it fills the item from the page's `data-testid` selectors.
  - It then falls back to the legacy class selectors for a falsy title, location, price or image list.
  - The helpers `extract_text` (strip, `None` for a missing or empty string) and `extract_price` (first digit run after removing commas) are modelled with it.
- **The MySQL pipeline's `process_item`.** This is a pure transition on a store of the five tables of the `listings` Django models. It runs these steps:
  1. Resolve the host by name, or insert it.
  2. Update the listing keyed by (title, location, host), or insert it.
  3. Delete the listing's images and insert the new ones, with the first one primary.
  4. Delete the listing's amenity links, then for each amenity name resolve the amenity (or insert it) and insert a link.

The schema (`Schema`) carries the constraints the MySQL tables enforce:

- the `NOT NULL` columns;
- the ranges of the numeric columns under strict mode (these are not part of `Valid`: `Pipeline.NumbersFit` checks them before each listing `INSERT` or `UPDATE`);
- the foreign keys;
- the unique amenity name;
- the unique (listing, amenity) pair.

The constraints that hold between rows are bundled as one invariant, `Valid`. Every pipeline step preserves it.

The field defaults (`currency='USD'`, `reviews_count=0`, `is_superhost=False`) and `on_delete=CASCADE` are declared in `models.py` and applied by Django's ORM, not by the tables. The pipeline's raw SQL supplies every column itself, with the same defaults through `dict.get`. `Schema.DeleteHost` and `Schema.DeleteListing` model the ORM's cascading delete; a plain `DELETE` of a host that still has listings is refused by the foreign key.

Modules and files:

- `wrappers.dfy` (`Wrappers`): `Option` and `Slot`. A `Slot` is an item key that is either unassigned or holds a value.
- `text.dfy` (`Text`): Python whitespace and `str.strip`, ASCII digit runs, `extract_text`, `extract_price`.
- `json.dfy` (`JsonValues`): decoded JSON values and Python's `in` on them.
- `spider.dfy` / `spider_facts.dfy` (`Spider`, `SpiderFacts`): `parse_listing` and its properties.
- `tables.dfy` (`Tables`): an auto-increment table, plus the SQL statements the pipeline issues:
  - `INSERT` and `UPDATE`;
  - `DELETE … WHERE`;
  - `SELECT id … WHERE` followed by `fetchone`;
  - an id-ordered `SELECT`.
- `schema.dfy` / `schema_facts.dfy` (`Schema`, `SchemaFacts`): the tables, constraints and cascades of `models.py`.
- `pipeline.dfy` / `pipeline_facts.dfy` (`Pipeline`, `PipelineFacts`): `process_item` and its properties. These include:
  - exactly which records it rejects;
  - what a successful run leaves behind;
  - that running the same item twice changes nothing but the listing's update time.
  - how one "Unread result found" on the connection rejects every later item of the crawl.

Modelling conventions:

- A page is given as the values its selectors return. `json.loads` of each script is given as the decoded value, or `None` where it raised.
- Python's `float()` on the rating text is a parameter `floatOf` that returns `None` where `float()` raises.
- The clock reading `NOW()` is a parameter `now`.
- Statements take effect as they run, because the connection sees its own writes. A statement the database rejects ends `process_item` with that error and the store as it stood just before the statement.

Behaviours of the code worth knowing:

- **Whitespace-only text.** It extracts to `""`, not to an absent value.
- **Price in the JSON branch.** The regex `(\$|€|£)(\d+)` runs on the raw text, so `"$1,234"` gives price 1 (`SpiderFacts.JointPriceStopsAtComma`). Only `extract_price` removes commas first (`SpiderFacts.PriceOfThousands`).
- **No decimal part.** A decimal part is never read; `"12.50"` yields 12.
- **Amenity names.** They are neither deduplicated nor case-folded by the spider. A name repeated within one item makes the link insert violate the unique (listing, amenity) pair, which rejects the record (`PipelineFacts.ProcessItemFailsExactly`).
- **The JSON source.** It only gates the selector pass; no field is read from the JSON itself.
- **Exceptions in the JSON branch.** An exception inside the branch keeps the fields assigned before it (`SpiderFacts.RatingFailureKeepsEarlierFields`).
- **Atomicity.** `process_item` is not atomic. It commits after a host, listing or amenity insert, so a rejected record leaves its earlier writes in place.
- **Races.** There is no handling of concurrent inserts.
- **Title fallback.** It reads the same `h1` selector as the JSON branch.
- **Default currency.** A fallback price is tagged `'$'`. `'USD'` is used only when the item has no currency key at all.
- **A missing host name.** It is matched against no row and then rejected by the `NOT NULL` name column. It is not assumed away.
- **A shared host name or listing key.** The connection's default cursor is unbuffered, and `fetchone()` reads one row ahead. A lookup that matches two rows leaves one unread, and the next statement fails with "Unread result found". So an item whose host name, or whose (title, location, host), is held by two rows is rejected (`SchemaFacts.HostNamesMayRepeat`, `PipelineFacts.ProcessItemFailsExactly`). Amenity names are unique, so their lookup never leaves a row unread. The connection is opened without `consume_results` and nothing reads the pending row afterwards, so every later item of the crawl is rejected with the same error before any statement runs (`Pipeline.ProcessAll`, `PipelineFacts.UnreadResultIsSticky`).
- **Numbers too large for their columns.** Under strict mode a price or total price of 10^8 or more, a rating that does not round into ±9.99, or a review count above 2147483647 rejects the listing statement (`Pipeline.RangeError`).
- **Very long review counts.** `int()` raises on a digit run longer than 4300 digits. The `except` at line 152 then skips the rest of the JSON branch, so the review count and every later field stay unassigned (`SpiderFacts.ReviewDigitLimit`).
- **Legacy selectors read markup.** `._9xiloll` and `._tyxjp1` are selected without `::text`, so the fallback location is the element's HTML and the fallback price is read from it: the digit in the class name `_tyxjp1` comes first (`SpiderFacts.LegacyPriceReadsMarkup`).

## Model

| member | source | states |
|---|---|---|
| Text.ExtractText | airbnb_scraper/spiders/airbnb_spider.py:175-178 | absent exactly when the text is missing or empty; otherwise the text with all its leading and trailing whitespace removed, which leaves no whitespace at either edge |
| Text.StripUnique | airbnb_scraper/spiders/airbnb_spider.py:178 | `strip()` is determined by its meaning: any string that is the text minus all leading and trailing whitespace and has no whitespace at either edge is the strip |
| Text.StripIdempotent | airbnb_scraper/spiders/airbnb_spider.py:178 | stripping twice is stripping once |
| Text.ExtractTextIdempotent | airbnb_scraper/spiders/airbnb_spider.py:175-178 | extracting a non-empty extracted text returns it unchanged; an extracted `""` reads as missing the second time |
| Text.ExtractTextOfBlank | airbnb_scraper/spiders/airbnb_spider.py:175-178 | a non-empty whitespace-only text extracts to the empty string, not to absent |
| Text.FirstDigitRunUnique | airbnb_scraper/spiders/airbnb_spider.py:183 | the leftmost maximal digit run `re.search(r'(\d+)')` finds is unique |
| Text.FirstDigitRunFindsAll | airbnb_scraper/spiders/airbnb_spider.py:183 | the search returns every leftmost maximal digit run there is |
| Text.FirstNumber | airbnb_scraper/spiders/airbnb_spider.py:183-184 | absent exactly when the text has no digit; otherwise the value of the leftmost maximal digit run |
| Text.RemoveCommas | airbnb_scraper/spiders/airbnb_spider.py:183 | `replace(',', '')`: no comma is left and every other character keeps its count |
| Text.RemoveCommasAppend | airbnb_scraper/spiders/airbnb_spider.py:183 | removing commas distributes over concatenation |
| Text.RemoveCommasNone | airbnb_scraper/spiders/airbnb_spider.py:183 | a text without commas is left unchanged |
| Text.NoDigitsRemoveCommas | airbnb_scraper/spiders/airbnb_spider.py:183 | removing commas neither creates nor destroys a digit |
| Text.ExtractPrice | airbnb_scraper/spiders/airbnb_spider.py:180-184 | absent exactly when the text is missing or has no digit; otherwise the value of the first digit run of the text with its commas removed |
| SpiderFacts.PriceOfDigitsAndCommas | airbnb_scraper/spiders/airbnb_spider.py:180-184 | a text of digits and commas is priced as the number its digits spell |
| SpiderFacts.PriceOfThousands | airbnb_scraper/spiders/airbnb_spider.py:180-184 | `"1,234"` is priced 1234 |
| SpiderFacts.PriceOfLoneDigit | airbnb_scraper/spiders/airbnb_spider.py:180-184 | a single digit after digit-free text and before a non-digit, with no comma anywhere, is the price |
| SpiderFacts.ExtractTextPadded | airbnb_scraper/spiders/airbnb_spider.py:175-178 | surrounding whitespace of any kind is removed and the core kept intact |
| SpiderFacts.StripExample | airbnb_scraper/spiders/airbnb_spider.py:175-178 | `"  Loft  "` extracts to `"Loft"` |
| SpiderFacts.BlankExample | airbnb_scraper/spiders/airbnb_spider.py:175-178 | `" \t\n"` extracts to `""` |
| Spider.SelectSource | airbnb_scraper/spiders/airbnb_spider.py:57-66 | the first script, by position, that decodes and passes the test without raising; absent exactly when none does |
| Spider.TestScript | airbnb_scraper/spiders/airbnb_spider.py:62-66 | chosen exactly when the value is an object whose `data` member contains `presentation`; passed over without raising exactly when one of the two `in` tests is false |
| JsonValues.PyIn | airbnb_scraper/spiders/airbnb_spider.py:62 | Python's `in` raises exactly on `None`, booleans and numbers; on an object it is key membership, on a list element membership, on a string a substring search |
| SpiderFacts.ChosenShape | airbnb_scraper/spiders/airbnb_spider.py:62 | a decoded script is chosen exactly when it is an object whose `data` member contains `presentation` under Python's `in` (a key, a list element or a substring); when the test raises, the script is not an object, or its `data` member is not a container |
| SpiderFacts.NoSourceMeansFallbackOnly | airbnb_scraper/spiders/airbnb_spider.py:57-68 | with no qualifying script, the item is the fallback applied to an empty item |
| SpiderFacts.UnopenableSourceAssignsNothing | airbnb_scraper/spiders/airbnb_spider.py:70-72 | when `['data']['presentation'].get` raises, the branch assigns no field |
| Spider.ParsePriceText | airbnb_scraper/spiders/airbnb_spider.py:83-93 | with no symbol-digit token, the currency is `'$'` and the price is `extract_price` of the text; otherwise the symbol and digit run of the leftmost token |
| SpiderFacts.JointPriceAtStart | airbnb_scraper/spiders/airbnb_spider.py:86-89 | a text that starts with a currency symbol and a digit run is priced at that run in that currency |
| SpiderFacts.JointPriceStopsAtComma | airbnb_scraper/spiders/airbnb_spider.py:86-89 | `"$1,234"` is read as price 1 in `"$"` |
| SpiderFacts.JsonPassPairsPriceAndCurrency | airbnb_scraper/spiders/airbnb_spider.py:85-93 | the JSON pass assigns a price exactly when it assigns a currency |
| Spider.ReviewsCount | airbnb_scraper/spiders/airbnb_spider.py:106-111 | unassigned for a falsy text; 0 when the text has no digit; `int()` raises exactly when the first digit run is longer than 4300 digits; otherwise the value of that run |
| Spider.CleanOne | airbnb_scraper/spiders/airbnb_spider.py:128-129 | one text contributes at most one string: its strip, exactly when that strip is non-empty |
| Spider.CleanAmenities | airbnb_scraper/spiders/airbnb_spider.py:126-129 | a string is in the list exactly when it is the non-empty strip of some text, and there are no more strings than texts; order and repeats are fixed by `CleanAmenitiesAppend` and `CleanAmenitiesSingle` |
| SpiderFacts.CleanAmenitiesAppend | airbnb_scraper/spiders/airbnb_spider.py:128-129 | cleaning distributes over concatenation, so order and duplicates survive |
| SpiderFacts.CleanAmenitiesSingle | airbnb_scraper/spiders/airbnb_spider.py:128-129 | one text gives exactly what `extract_text` returns for it, or nothing when that is missing or empty; with `CleanAmenitiesAppend` this determines the list for every page |
| SpiderFacts.CleanAmenitiesKeepsRepeats | airbnb_scraper/spiders/airbnb_spider.py:126-129 | two texts that extract to the same non-empty amenity give it twice, in document order |
| Spider.JoinedAtIsRegex | airbnb_scraper/spiders/airbnb_spider.py:144-145 | the executable match test agrees with the regex `Joined in (\w+ \d{4})` at a position, and the greedy `\w+` ends at the end of the word run |
| Spider.MonthNumber | airbnb_scraper/spiders/airbnb_spider.py:148-149 | `%B`: the month whose English name equals the word ignoring ASCII case; absent exactly when there is none |
| Spider.TwoDigits | airbnb_scraper/spiders/airbnb_spider.py:149 | the month is written as two digits that spell it |
| Spider.DateOf | airbnb_scraper/spiders/airbnb_spider.py:147-151 | a date exactly when the word is a month name and the year is not 0000; the date is `YYYY-MM-01` with the matched year and the month's two digits |
| Spider.JoinedDate | airbnb_scraper/spiders/airbnb_spider.py:141-151 | unassigned exactly when the text is falsy or the regex matches nowhere; otherwise the date of the leftmost match, which is unique, or `None` when `strptime` raises |
| Spider.SearchJoined | airbnb_scraper/spiders/airbnb_spider.py:144-146 | `re.search`: no match exactly when the regex matches at no position; otherwise the leftmost match |
| SpiderFacts.JoinedDateAtStart | airbnb_scraper/spiders/airbnb_spider.py:144-149 | a match at the start of the text is the one converted |
| SpiderFacts.JoinedPhrase | airbnb_scraper/spiders/airbnb_spider.py:141-151 | for any word, four-digit year and trailing text, the date is the conversion of that word and year |
| SpiderFacts.MonthNumberOfName | airbnb_scraper/spiders/airbnb_spider.py:148 | each month name parses to its own month number |
| SpiderFacts.DateOfMonthName | airbnb_scraper/spiders/airbnb_spider.py:148-149 | a month name and a year from 0001 format as that year, that month, day 01 |
| SpiderFacts.JoinedMonthYear | airbnb_scraper/spiders/airbnb_spider.py:141-151 | `Joined in <Month> <year>` gives `<year>-<MM>-01` |
| SpiderFacts.JoinedMarch | airbnb_scraper/spiders/airbnb_spider.py:141-151 | `"Joined in March 2019"` gives `"2019-03-01"` |
| SpiderFacts.JoinedYearZero | airbnb_scraper/spiders/airbnb_spider.py:147-151 | year 0000 makes `strptime` raise, so the join date is assigned `None` |
| Spider.ListingFields | airbnb_scraper/spiders/airbnb_spider.py:75-153 | title, location, address and total price are always assigned; price and currency exactly when the price text is truthy; the rating exactly when `float()` does not raise on it; a later field only when the rating is assigned, and images, amenities and the superhost flag together with the description |
| Spider.JsonPass | airbnb_scraper/spiders/airbnb_spider.py:57-153 | no field when no script qualifies; the title is assigned exactly when a source was chosen and its `presentation` opened; price and currency are assigned together |
| SpiderFacts.RatingFailureKeepsEarlierFields | airbnb_scraper/spiders/airbnb_spider.py:75-153 | when `float()` raises on the rating, the title, location, address and total price stay assigned, the price and currency exactly when the price text is truthy, and no field from line 104 on is assigned |
| SpiderFacts.CompletedBranchAssignsAll | airbnb_scraper/spiders/airbnb_spider.py:75-153 | otherwise the text fields, total price and rating are assigned, and the price exactly when its text is truthy; a review digit run over 4300 digits leaves the review count and every later field unassigned; without it the images are the page's, the amenities the cleaned texts, the superhost flag whether a badge exists, and the review count is assigned exactly when its text is truthy |
| SpiderFacts.ReviewDigitLimit | airbnb_scraper/spiders/airbnb_spider.py:108-111 | a review text of 4300 digits is counted; one of 4301 digits makes `int()` raise |
| Spider.Fallback | airbnb_scraper/spiders/airbnb_spider.py:155-171 | a falsy title, location, price or image list is replaced from the legacy selectors, a replaced price is tagged `'$'`, and every other field is kept |
| SpiderFacts.FallbackIdempotent | airbnb_scraper/spiders/airbnb_spider.py:155-171 | applying the fallback twice is applying it once |
| SpiderFacts.ZeroPriceIsReplaced | airbnb_scraper/spiders/airbnb_spider.py:163-167 | a zero price counts as falsy, so it is replaced and the currency reset to `'$'` |
| SpiderFacts.LegacyPriceReadsMarkup | airbnb_scraper/spiders/airbnb_spider.py:163-166 | the fallback price is read from the element's markup: whatever comma-free price `<span class="_tyxjp1">` shows, the price is 1, from the class name |
| Spider.ParseListing | airbnb_scraper/spiders/airbnb_spider.py:53-173 | the yielded item always has title, location, price, currency and image list assigned; with no qualifying script it is the fallback applied to an empty item |
| SpiderFacts.JoinedDateIsValid | airbnb_scraper/spiders/airbnb_spider.py:141-151 | a join date the JSON branch assigns is `None` or `YYYY-MM-01` with a year from 0001 and a month from 01 to 12 |
| SpiderFacts.ParsedJoinDateIsValid | airbnb_scraper/spiders/airbnb_spider.py:141-173 | the yielded item's join date is missing or such a date, since the fallback leaves it alone |
| SpiderFacts.ParsedItemHasCoreKeys | airbnb_scraper/spiders/airbnb_spider.py:155-173 | every yielded item has the title, location, price, currency and image keys assigned |
| Tables.Insert | airbnb_scraper/pipeline.py:59-67 | the new row gets an id no row had, and `lastrowid` is that id |
| Tables.InsertAll | airbnb_scraper/pipeline.py:128-136 | inserting rows in order allocates consecutive fresh ids and drops no old id |
| Tables.InsertAllAt | airbnb_scraper/pipeline.py:128-136 | the row inserted k-th is stored under the k-th fresh id |
| Tables.InsertAllKeeps | airbnb_scraper/pipeline.py:128-136 | a row stored before the inserts keeps its contents |
| Tables.DeleteWhere | airbnb_scraper/pipeline.py:122-125 | exactly the matching rows are removed and the rest are kept unchanged |
| Tables.Update | airbnb_scraper/pipeline.py:91-101 | one row is replaced and no other row or id changes |
| Tables.FindFirst | airbnb_scraper/pipeline.py:49-53 | `fetchone` after `SELECT id … WHERE`: the lowest-id matching row, absent exactly when no row matches |
| Tables.FindFrom | airbnb_scraper/pipeline.py:49-53 | the lowest matching id at or above a bound; no row between the bound and it matches |
| Tables.RowsUnread | airbnb_scraper/pipeline.py:49-53 | after `fetchone` has returned the first match, the unbuffered cursor holds an unread row exactly when that match is not the only one, that is, exactly when two rows match |
| Tables.FindFirstIsFirstMatch | airbnb_scraper/pipeline.py:49-56 | the lookup returns an id exactly when it is the lowest matching id |
| Tables.FirstMatchUnique | airbnb_scraper/pipeline.py:53 | the lowest matching id is unique |
| Tables.SelectAfterInsertAll | airbnb_scraper/pipeline.py:127-136 | reading in id order after a bulk insert gives the old matching rows, then the matching new rows in insertion order |
| Tables.SelectAfterDelete | airbnb_scraper/pipeline.py:121-125 | after deleting by a condition, a read implied by it is empty and a read disjoint from it is unchanged |
| Schema.EmptyStore | airbnb_project/listings/models.py:4-66 | an empty database satisfies every constraint |
| Schema.DeleteAmenity | airbnb_project/listings/models.py:59 | deleting an amenity deletes exactly its links and keeps every constraint |
| Schema.DeleteListing | airbnb_project/listings/models.py:36-59 | deleting a listing deletes exactly its images and links and keeps every constraint |
| Schema.DeleteHost | airbnb_project/listings/models.py:27-28 | deleting a host deletes exactly its listings and their images and links, and keeps every constraint |
| SchemaFacts.HostNamesMayRepeat | airbnb_project/listings/models.py:5 | two hosts may share a name; the lookup by name then returns the lower id but leaves the other row unread, and an item with that host name is rejected with "Unread result found" |
| SchemaFacts.AmenityLookupIsUnique | airbnb_project/listings/models.py:47 | with unique names, the lookup by name returns the one amenity of that name and leaves no row unread |
| SchemaFacts.DeleteListingKeepsOthers | airbnb_project/listings/models.py:36-59 | after deleting a listing it has no images or amenity names, and every other listing keeps its own |
| SchemaFacts.DeleteListingKeepsNames | airbnb_project/listings/models.py:56-59 | deleting one listing leaves another listing's amenity names as they were |
| SchemaFacts.HostDeleteNeedsCascade | airbnb_project/listings/models.py:27-28 | a plain delete of a host that still has a listing would break the foreign key, so the database refuses it; the ORM's cascade removes the listing |
| SchemaFacts.DeleteAmenityUnlinksName | airbnb_project/listings/models.py:59 | deleting an amenity removes exactly its name from every listing's amenity names |
| Pipeline.ResolveHost | airbnb_scraper/pipeline.py:43-67 | rejected exactly when the host name is missing (`NOT NULL`, writing nothing) or held by two hosts (unread result, writing nothing); otherwise the only host with that name, reused untouched, or else one new host with the item's fields and the default superhost flag |
| PipelineFacts.HostCountGrowsByAtMostOne | airbnb_scraper/pipeline.py:48-67 | host resolution adds at most one host and changes no stored host |
| PipelineFacts.NewHostDefaultsToOrdinary | airbnb_scraper/pipeline.py:45 | a new host without a superhost key is not a superhost |
| PipelineFacts.SecondHostLookup | airbnb_scraper/pipeline.py:48-56 | the only host with the item's name is reused with no write |
| Pipeline.FindListing | airbnb_scraper/pipeline.py:81-86 | the lowest-id listing with that title, location and host; a missing title or location matches nothing |
| Pipeline.ResolveListing | airbnb_scraper/pipeline.py:69-116 | an existing key is updated in place, and rejected exactly when two listings share it (unread result), the price is missing, or a number is out of range; a new key is inserted, and rejected exactly when the title, location or price is missing or a number is out of range; afterwards the listing is the only match for its key |
| Pipeline.RangeError | airbnb_project/listings/models.py:18-25 | no error exactly when the price and total price are below 10^8, the rating rounds into ±9.99 and the review count is at most 2147483647; the price column is reported exactly when the price is out of range |
| PipelineFacts.ListingUpdateKeepsIdentity | airbnb_scraper/pipeline.py:88-101 | an update keeps title, location, address, host and creation time, stamps the update time, and changes no other listing |
| PipelineFacts.ListingInsertAddsOne | airbnb_scraper/pipeline.py:102-116 | an insert adds exactly one listing, of this host, created and updated now, and changes no other listing |
| Pipeline.ReadListing | airbnb_scraper/pipeline.py:70-79 | `adapter.get`: an unassigned title, location, price or rating reads as `None`, a missing currency as `USD` and a missing review count as 0; an assigned title, location, price, currency or review count reads as its value |
| PipelineFacts.MissingKeysTakeDefaults | airbnb_scraper/pipeline.py:74-78 | a missing currency is stored as `USD` and a missing review count as 0 |
| PipelineFacts.SecondListingLookup | airbnb_scraper/pipeline.py:81-101 | the only listing with the item's key is updated in place, with the same id, when the item's numbers fit |
| PipelineFacts.ListingRowHoldsInput | airbnb_scraper/pipeline.py:88-116 | after resolution the listing row holds the item's mutable columns, so refreshing it with the same item changes only the update time |
| Pipeline.ImageRows | airbnb_scraper/pipeline.py:128-136 | one row per URL, in order, for this listing, primary exactly at position 0 |
| Pipeline.ReplaceImages | airbnb_scraper/pipeline.py:118-136 | only the image table changes and every constraint holds |
| PipelineFacts.ImagesAfterReplace | airbnb_scraper/pipeline.py:118-136 | afterwards the listing's images, in id order, are exactly the new rows, and every other listing's images are unchanged |
| Pipeline.ResolveAmenity | airbnb_scraper/pipeline.py:149-165 | the amenity of that name, existing or newly added; stored amenities are unchanged and at most one is added |
| PipelineFacts.LinkExistsIffNameLinked | airbnb_scraper/pipeline.py:148-174 | the link to a resolved amenity already exists exactly when the listing already has that amenity name |
| PipelineFacts.LinkedNamesAfterLink | airbnb_scraper/pipeline.py:167-174 | inserting a link adds exactly that amenity's name to the listing's names |
| PipelineFacts.LinkedNamesAfterNewAmenities | airbnb_scraper/pipeline.py:158-165 | adding amenities does not change any listing's amenity names |
| Pipeline.LinkAmenities | airbnb_scraper/pipeline.py:147-174 | every constraint holds afterwards, a failure is a duplicate link, and hosts, listings and images are untouched |
| PipelineFacts.LinkAmenitiesFrame | airbnb_scraper/pipeline.py:147-174 | the link loop keeps every stored amenity and link, leaves other listings' amenity names alone, and adds no amenity when every name already has one |
| PipelineFacts.LinkAmenitiesKeepsRows | airbnb_scraper/pipeline.py:147-174 | the link loop never deletes or changes a stored amenity or link |
| PipelineFacts.LinkAmenitiesKeepsOthers | airbnb_scraper/pipeline.py:147-174 | the link loop leaves every other listing's amenity names as they were |
| PipelineFacts.LinkAmenitiesAddsNoKnownName | airbnb_scraper/pipeline.py:149-165 | when every name already has an amenity, the amenity table is unchanged |
| PipelineFacts.LinkAmenitiesSpec | airbnb_scraper/pipeline.py:147-174 | the link loop succeeds exactly when the names are distinct and none is linked yet, and then adds exactly those names |
| PipelineFacts.ClearedLinks | airbnb_scraper/pipeline.py:141-145 | after the delete, the listing has no amenity names and every constraint holds |
| Pipeline.ProcessItem | airbnb_scraper/pipeline.py:39-177 | every constraint holds after any outcome, and a stored item's listing exists |
| PipelineFacts.ProcessItemFailsExactly | airbnb_scraper/pipeline.py:39-177 | on a connection with no pending result, a record is rejected exactly when it lacks a host name, its host name or listing key is held by two rows, it lacks a title, location or price, a number is out of range, or it repeats an amenity name; a missing or shared host name writes nothing |
| Pipeline.ProcessOnConnection | airbnb_scraper/pipeline.py:25-49 | with a result pending, the call is rejected with "Unread result found" and changes nothing; otherwise it is `ProcessItem` on the store, and it leaves a result pending exactly when it was rejected with that error |
| Pipeline.ProcessAll | airbnb_scraper/pipeline.py:25-49 | one outcome per item, in order; once a result is pending every item is rejected with "Unread result found" and the store stays as it is; at the end a result is pending exactly when one was at the start or some item was rejected with that error |
| PipelineFacts.UnreadResultIsSticky | airbnb_scraper/pipeline.py:25-91 | after an item rejected with "Unread result found" on a clean connection, every later item of the crawl is rejected with the same error and the store keeps what the first rejection left |
| PipelineFacts.ListingLookupDuplicates | airbnb_scraper/pipeline.py:81-91 | once the host is resolved, the listing lookup leaves a row unread exactly when two listings of a host with that name share the title and location; a new host has no listing to find |
| PipelineFacts.SuccessfulRun | airbnb_scraper/pipeline.py:39-177 | after a stored item, the host and listing are the only matches for their keys, the item's numbers fit, the listing row holds the item, the images are the item's URLs in order, and the amenity names are exactly the item's |
| PipelineFacts.SecondRun | airbnb_scraper/pipeline.py:39-177 | on a store already holding the item, with its host and listing the only matches for their keys and its numbers in range, a run succeeds on the same listing, keeps hosts and amenities, changes the listing row only in its update time, and leaves the images as the item's URLs and the amenity names as they were |
| PipelineFacts.RelinkSameNames | airbnb_scraper/pipeline.py:118-174 | on a listing already linked to exactly the item's distinct names, the image and link steps succeed, keep hosts, listings and amenities, store the new images and restore the same names |
| PipelineFacts.ProcessItemIdempotent | airbnb_scraper/pipeline.py:39-177 | storing the same item twice succeeds on the same listing and leaves hosts, amenities, the listing's images and amenity names as the first run left them; only the update time moves |

## Left out

- Crawling is not modelled: the search-result requests, pagination, and `start_requests`. The spider's network I/O is outside the core.
- CSS selection and `json.loads` are given as their results (the `Page` fields and the decoded `Json` values). HTML parsing is not modelled.
- `float()` on the rating text is the parameter `floatOf`. Floating-point parsing is not modelled.
- Prices are naturals. The code produces `float` values that are always whole numbers and stores them in `DECIMAL(10,2)` columns, so floating point and decimal storage are not modelled.
- The model assumes MySQL strict mode throughout. That is what turns `NULL` in a `NOT NULL` column, and a number out of its column's range, into an error.
- PipelineFacts.ProcessItemFailsExactly: the `max_length` of the character columns is not enforced, so these rejections are missing from it:
  - a title, location, address or host name over 255 characters;
  - a currency over 10 characters;
  - a property type or amenity name over 100 characters;
  - a host image or listing image URL over 1000 characters;
  - a description over the 65535 bytes of a `TEXT` column.
  Strings are character sequences without an encoding, so byte lengths cannot be stated.
- PipelineFacts.ProcessItemFailsExactly: the `DATE` column `joined_date` rejects, in strict mode, a host join date that is not a valid date (`"abc"`, `"2019-02-30"`). The model stores any string, so for such an item the lemma says `Done` where the host `INSERT` fails. MySQL's accepted date spellings are not modelled. Items from `parse_listing` never carry such a date (`SpiderFacts.ParsedJoinDateIsValid`).
- Pipeline.RangeError: a price of about 1.8 × 10^308 or more becomes `inf` under `float()`. The driver or the database then rejects the statement for a reason other than the range; the model reports it as out of range.
- Pipeline.ResolveListing: the stored rating is the item's value. The `DECIMAL(3,2)` column rounds it to two places; the model does not.
- `\d` and `\w` are modelled on ASCII, and `%B` ignores ASCII case only. Python's Unicode digit and word classes and non-ASCII case folding are not modelled. `str.isspace`, and so `strip()`, use Python's full whitespace set.
- The model's lookups and unique constraints compare strings exactly, as a binary collation such as `utf8mb4_bin` does. MySQL 8's default `utf8mb4_0900_ai_ci` ignores case and accents (and, being `NO PAD`, keeps trailing spaces significant). Under it, names that differ only in case or accents match the same host, listing key or amenity, and the unique amenity name rejects them as duplicates.
- Spider.ReviewsCount: the 4300-digit limit is Python's default from 3.11 (and the 3.7-3.10 security releases). Without it, any digit run is counted.
- Commits and transaction boundaries are not modelled: every statement is visible at once.
  - Error handling after a failure (rollback, or a later commit of pending writes) is decided outside `process_item`. The one piece of connection state that outlives a failure, a pending unread result, is modelled by `Pipeline.Connection`.
  - Concurrent pipelines are not modelled.
- The clock is the parameter `now`. Django's `auto_now`/`auto_now_add` on `created_at`/`updated_at` are shown through the pipeline's own `NOW()` values.
- `open_spider`, `close_spider` (connection set-up and tear-down) and the `logger.error` call are left out, because they change no state of the model.
- Out of the core:
  - the downloader middleware;
  - `run_scraper.py`;
  - the Django views, serializers and admin;
  - the `AirbnbListingItem` field declarations, which carry no logic beyond the field names used by `Item`.
- Spider.DateOf: `strftime('%Y')` is taken to print a four-digit year. Some C libraries print years below 1000 without leading zeros; that platform difference is not modelled.

=== FILE: json.dfy ===
/** The shape of a value `json.loads` returns, and Python's `key in value`
    test on it: the only two things the spider does with a parsed script
    before it decides whether to use it. */
module JsonValues {
  import opened Wrappers

  /** A decoded JSON document. Number and boolean payloads play no part in
      the spider's tests, so numbers carry none. */
  datatype Json =
    | JNull
    | JBool(b: bool)
    | JNumber
    | JString(s: string)
    | JArray(items: seq<Json>)
    | JObject(fields: map<string, Json>)

  /** `needle` occurs as a contiguous piece of `hay`. */
  predicate IsSubstring(needle: string, hay: string)
    decreases |hay|
  {
    || needle <= hay
    || (hay != [] && IsSubstring(needle, hay[1..]))
  }

  /** Python's `key in v` for a string `key`: dictionary membership, list
      membership, or substring search; `None` when Python raises
      `TypeError` (numbers, booleans and `None` are not containers). */
  function PyIn(key: string, v: Json): (r: Option<bool>)
    ensures r.None? <==> v.JNull? || v.JBool? || v.JNumber?
    ensures v.JObject? ==> r == Some(key in v.fields)
    ensures v.JArray? ==> r == Some(JString(key) in v.items)
    ensures v.JString? ==> r == Some(IsSubstring(key, v.s))
  {
    match v
    case JObject(m) => Some(key in m)
    case JArray(xs) => Some(JString(key) in xs)
    case JString(s) => Some(IsSubstring(key, s))
    case _ => None
  }

  /** `key in v` is true (and did not raise). */
  predicate Contains(v: Json, key: string) {
    PyIn(key, v) == Some(true)
  }
}

=== FILE: pipeline.dfy ===
/** `MySQLPipeline.process_item` as a transition on the store: resolve or
    create the host, update or insert the listing, replace the images,
    replace the amenity links. Every statement takes effect as it runs (the
    connection sees its own uncommitted writes); a statement the database
    rejects, in strict mode, ends the call with the store as it was just
    before it. */
module Pipeline {
  import opened Wrappers
  import opened Tables
  import opened Schema
  import opened Spider

  /** The database errors `process_item` can run into. */
  datatype DbError =
    | NullInNotNullColumn(column: string)
    | OutOfRange(column: string)
    | DuplicateLink(listing: nat, amenity: nat)
    | UnreadResult    // mysql.connector's "Unread result found"

  /** The store after a step, and what the step produced; or the error and
      the store as the failing statement left it (unchanged by it). */
  datatype Outcome<T> =
    | Done(store: Store, value: T)
    | Failed(error: DbError, store: Store)

  // ---------------------------------------------------------------------
  // Lookups
  // ---------------------------------------------------------------------

  /** `WHERE name = n` on the host table. */
  function HostNamed(n: string): Host -> bool {
    (h: Host) => h.name == n
  }

  /** `WHERE title = t AND location = l AND host_id = hid`. */
  function ListingKeyed(t: string, l: string, hid: nat): Listing -> bool {
    (x: Listing) => x.title == t && x.location == l && x.host == hid
  }

  /** `WHERE name = n` on the amenity table. */
  function AmenityNamed(n: string): Amenity -> bool {
    (a: Amenity) => a.name == n
  }

  // ---------------------------------------------------------------------
  // Host
  // ---------------------------------------------------------------------

  /** Lines 43-67. A host named like the item's is reused untouched;
      otherwise one host is inserted, not a superhost unless the item says
      so. A missing name matches no row and is then rejected by the NOT
      NULL name column. When several hosts share the name, `fetchone()`
      leaves a row unread and the next statement (line 82) fails. */
  function ResolveHost(s: Store, item: Item): (r: Outcome<nat>)
    requires Valid(s)
    ensures r.Failed? <==> Get(item.hostName).None? || !AtMostOneMatch(s.hosts, HostNamed(Get(item.hostName).value))
    ensures Get(item.hostName).None? ==> r == Failed(NullInNotNullColumn("name"), s)
    ensures r.Failed? && Get(item.hostName).Some? ==> r == Failed(UnreadResult, s)
    ensures r.Done? ==> && Valid(r.store)
                        && r.store == s.(hosts := r.store.hosts)
                        && IsOnlyMatch(r.store.hosts, HostNamed(Get(item.hostName).value), r.value)
    ensures r.Done? && (exists id | id in s.hosts.rows :: HostNamed(Get(item.hostName).value)(s.hosts.rows[id])) ==>
      r.store == s
    ensures r.Done? && (forall id | id in s.hosts.rows :: !HostNamed(Get(item.hostName).value)(s.hosts.rows[id])) ==>
      && r.value !in s.hosts.rows
      && r.store.hosts.rows == s.hosts.rows[r.value := Host(Get(item.hostName).value, Get(item.hostImage),
                                                         item.hostIsSuperhost.GetOr(DefaultIsSuperhost),
                                                         Get(item.hostJoined))]
  {
    match Get(item.hostName)
    case None => Failed(NullInNotNullColumn("name"), s)
    case Some(n) =>
      match FindFirst(s.hosts, HostNamed(n))
      case Some(hid) =>
        if RowsUnread(s.hosts, HostNamed(n), hid) then Failed(UnreadResult, s) else Done(s, hid)
      case None =>
        var row := Host(n, Get(item.hostImage), item.hostIsSuperhost.GetOr(DefaultIsSuperhost), Get(item.hostJoined));
        var (hosts, hid) := Insert(s.hosts, row);
        Done(s.(hosts := hosts), hid)
  }

  // ---------------------------------------------------------------------
  // Listing
  // ---------------------------------------------------------------------

  /** The listing columns as lines 70-79 read them from the item: a
      missing currency is `'USD'` and a missing review count 0. */
  datatype ListingInput = ListingInput(
    title: Option<string>,
    location: Option<string>,
    address: Option<string>,
    price: Option<nat>,
    currency: string,
    totalPrice: Option<nat>,
    rating: Option<real>,
    description: Option<string>,
    reviewsCount: nat,
    propertyType: Option<string>)

  function ReadListing(item: Item): (r: ListingInput)
    ensures item.currency.Unassigned? ==> r.currency == DefaultCurrency
    ensures item.currency.Assigned? ==> r.currency == item.currency.value
    ensures item.reviewsCount.Unassigned? ==> r.reviewsCount == DefaultReviewsCount
    ensures item.reviewsCount.Assigned? ==> r.reviewsCount == item.reviewsCount.value
    ensures item.title.Unassigned? ==> r.title.None?
    ensures item.location.Unassigned? ==> r.location.None?
    ensures item.pricePerNight.Unassigned? ==> r.price.None?
    ensures item.rating.Unassigned? ==> r.rating.None?
    ensures item.title.Assigned? ==> r.title == item.title.value
    ensures item.location.Assigned? ==> r.location == item.location.value
    ensures item.pricePerNight.Assigned? ==> r.price == item.pricePerNight.value
  {
    ListingInput(
      Get(item.title), Get(item.location), Get(item.address), Get(item.pricePerNight),
      item.currency.GetOr(DefaultCurrency), Get(item.totalPrice), Get(item.rating),
      Get(item.description), item.reviewsCount.GetOr(DefaultReviewsCount), Get(item.propertyType))
  }

  /** The listing row lines 81-86 look up, if any. A missing title or
      location compares as SQL NULL, which equals nothing. */
  function FindListing(s: Store, hid: nat, x: ListingInput): (r: Option<nat>)
    requires Valid(s)
    ensures r.Some? ==>
      && x.title.Some? && x.location.Some?
      && IsFirstMatch(s.listings, ListingKeyed(x.title.value, x.location.value, hid), r.value)
    ensures r.None? && x.title.Some? && x.location.Some? ==>
      forall id | id in s.listings.rows :: !ListingKeyed(x.title.value, x.location.value, hid)(s.listings.rows[id])
  {
    if x.title.Some? && x.location.Some? then
      FindFirst(s.listings, ListingKeyed(x.title.value, x.location.value, hid))
    else None
  }

  /** Lines 88-101: the columns an existing listing gets from the item.
      Title, location, address, host and creation time are kept. */
  function Refreshed(prev: Listing, x: ListingInput, price: nat, now: nat): Listing {
    prev.(pricePerNight := price, currency := x.currency, totalPrice := x.totalPrice,
          rating := x.rating, description := x.description, reviewsCount := x.reviewsCount,
          propertyType := x.propertyType, updatedAt := now)
  }

  /** The item's numbers fit their columns: price and total price in
      `DECIMAL(10,2)`, rating in `DECIMAL(3,2)`, review count in `INT`. */
  predicate NumbersFit(x: ListingInput) {
    && (x.price.Some? ==> PriceFits(x.price.value))
    && (x.totalPrice.Some? ==> PriceFits(x.totalPrice.value))
    && (x.rating.Some? ==> RatingFits(x.rating.value))
    && x.reviewsCount <= IntMax
  }

  /** The out-of-range error strict mode raises for the item's numbers, if
      any: the first offending column in the order both the `UPDATE` and the
      `INSERT` list them (price, total price, rating, review count). */
  function RangeError(x: ListingInput): (r: Option<DbError>)
    ensures r.None? <==> NumbersFit(x)
    ensures r.Some? ==> r.value.OutOfRange?
    ensures r == Some(OutOfRange("price_per_night")) <==> x.price.Some? && !PriceFits(x.price.value)
    ensures r == Some(OutOfRange("reviews_count")) ==> x.reviewsCount > IntMax
  {
    if x.price.Some? && !PriceFits(x.price.value) then Some(OutOfRange("price_per_night"))
    else if x.totalPrice.Some? && !PriceFits(x.totalPrice.value) then Some(OutOfRange("total_price"))
    else if x.rating.Some? && !RatingFits(x.rating.value) then Some(OutOfRange("rating"))
    else if x.reviewsCount > IntMax then Some(OutOfRange("reviews_count"))
    else None
  }

  /** Lines 102-116: a new listing row, created and updated `now`. */
  function NewListing(x: ListingInput, title: string, location: string, price: nat, hid: nat, now: nat): Listing {
    Listing(title, location, x.address, price, x.currency, x.totalPrice, x.rating,
            x.description, x.reviewsCount, x.propertyType, hid, now, now)
  }

  /** Lines 69-116. A listing with the same (title, location, host) is
      updated in place; otherwise one listing is inserted. When several
      listings share the key, `fetchone()` leaves a row unread and the
      `UPDATE` fails. A missing price is rejected on both paths, a missing
      title or location on insert, and a number too large for its column
      on both. */
  function ResolveListing(s: Store, hid: nat, x: ListingInput, now: nat): (r: Outcome<nat>)
    requires Valid(s) && hid in s.hosts.rows
    ensures r.Failed? ==> r.store == s
    ensures r.Done? ==> Valid(r.store) && r.store == s.(listings := r.store.listings)
    ensures FindListing(s, hid, x).Some? ==>
      && (r.Failed? <==> !AtMostOneMatch(s.listings, ListingKeyed(x.title.value, x.location.value, hid))
                         || x.price.None? || !NumbersFit(x))
      && (!AtMostOneMatch(s.listings, ListingKeyed(x.title.value, x.location.value, hid)) ==>
            r == Failed(UnreadResult, s))
      && (AtMostOneMatch(s.listings, ListingKeyed(x.title.value, x.location.value, hid)) && x.price.None? ==>
            r == Failed(NullInNotNullColumn("price_per_night"), s))
      && (r.Done? ==>
            && r.value == FindListing(s, hid, x).value
            && r.store.listings == Update(s.listings, r.value,
                 Refreshed(s.listings.rows[r.value], x, x.price.value, now)))
    ensures FindListing(s, hid, x).None? ==>
      && (r.Failed? <==> x.title.None? || x.location.None? || x.price.None? || !NumbersFit(x))
      && (r.Failed? && x.title.Some? && x.location.Some? && x.price.Some? ==> r.error.OutOfRange?)
      && (r.Failed? ==> r.error.NullInNotNullColumn? || r.error.OutOfRange?)
      && (r.Done? ==>
            && r.value !in s.listings.rows
            && r.store.listings.rows == s.listings.rows[r.value :=
                 NewListing(x, x.title.value, x.location.value, x.price.value, hid, now)])
    ensures r.Done? ==>
      && x.title.Some? && x.location.Some? && x.price.Some? && NumbersFit(x)
      && IsOnlyMatch(r.store.listings, ListingKeyed(x.title.value, x.location.value, hid), r.value)
  {
    match FindListing(s, hid, x)
    case Some(lid) =>
      var key := ListingKeyed(x.title.value, x.location.value, hid);
      if RowsUnread(s.listings, key, lid) then Failed(UnreadResult, s)
      else if x.price.None? then Failed(NullInNotNullColumn("price_per_night"), s)
      else if RangeError(x).Some? then Failed(RangeError(x).value, s)
      else
        var listings := Update(s.listings, lid, Refreshed(s.listings.rows[lid], x, x.price.value, now));
        assert forall k | k in listings.rows && key(listings.rows[k]) :: k == lid;
        Done(s.(listings := listings), lid)
    case None =>
      if x.title.None? then Failed(NullInNotNullColumn("title"), s)
      else if x.location.None? then Failed(NullInNotNullColumn("location"), s)
      else if x.price.None? then Failed(NullInNotNullColumn("price_per_night"), s)
      else if RangeError(x).Some? then Failed(RangeError(x).value, s)
      else
        var row := NewListing(x, x.title.value, x.location.value, x.price.value, hid, now);
        var (listings, lid) := Insert(s.listings, row);
        Done(s.(listings := listings), lid)
  }

  // ---------------------------------------------------------------------
  // Images
  // ---------------------------------------------------------------------

  /** The rows lines 128-136 insert: one per URL, in order, the first one
      primary. */
  function ImageRows(lid: nat, urls: seq<string>): (r: seq<ListingImage>)
    ensures |r| == |urls|
    ensures forall i | 0 <= i < |urls| :: r[i].listing == lid && r[i].imageUrl == urls[i]
    ensures forall i | 0 <= i < |urls| :: r[i].isPrimary <==> i == 0
  {
    seq(|urls|, i requires 0 <= i < |urls| => ListingImage(lid, urls[i], i == 0))
  }

  /** Lines 118-136: delete the listing's images, insert the new ones. */
  function ReplaceImages(s: Store, lid: nat, urls: seq<string>): (r: Store)
    requires Valid(s) && lid in s.listings.rows
    ensures Valid(r)
    ensures r == s.(images := r.images)
  {
    var cleared := DeleteWhere(s.images, ImageOf(lid));
    var rows := ImageRows(lid, urls);
    var images := InsertAll(cleared, rows);
    forall id | id in images.rows ensures images.rows[id].listing in s.listings.rows {
      if id >= cleared.next {
        InsertAllAt(cleared, rows, id);
      } else {
        InsertAllKeeps(cleared, rows, id);
      }
    }
    s.(images := images)
  }

  // ---------------------------------------------------------------------
  // Amenities
  // ---------------------------------------------------------------------

  /** Lines 149-165: the amenity named `n`, created if there is none. */
  function ResolveAmenity(s: Store, n: string): (r: (Store, nat))
    requires Valid(s)
    ensures Valid(r.0)
    ensures r.0 == s.(amenities := r.0.amenities)
    ensures r.1 in r.0.amenities.rows && r.0.amenities.rows[r.1].name == n
    ensures forall id | id in s.amenities.rows :: id in r.0.amenities.rows && r.0.amenities.rows[id] == s.amenities.rows[id]
    ensures forall id | id in r.0.amenities.rows && id != r.1 :: id in s.amenities.rows
    ensures (exists id | id in s.amenities.rows :: s.amenities.rows[id].name == n) ==> r.0 == s
  {
    match FindFirst(s.amenities, AmenityNamed(n))
    case Some(aid) => (s, aid)
    case None =>
      var (amenities, aid) := Insert(s.amenities, Amenity(n));
      (s.(amenities := amenities), aid)
  }

  /** Lines 147-174: for each name in order, resolve the amenity and link
      it to the listing. A second link for the same pair violates the
      unique (listing, amenity) constraint; the amenities created up to
      then stay. */
  function LinkAmenities(s: Store, lid: nat, names: seq<string>): (r: Outcome<()>)
    requires Valid(s) && lid in s.listings.rows
    ensures Valid(r.store)
    ensures r.Failed? ==> r.error.DuplicateLink?
    ensures r.store.hosts == s.hosts && r.store.listings == s.listings && r.store.images == s.images
    decreases |names|
  {
    if names == [] then Done(s, ())
    else
      var (s1, aid) := ResolveAmenity(s, names[0]);
      var link := ListingAmenity(lid, aid);
      if link in s1.links.rows.Values then Failed(DuplicateLink(lid, aid), s1)
      else
        var (links, _) := Insert(s1.links, link);
        LinkAmenities(s1.(links := links), lid, names[1..])
  }

  // ---------------------------------------------------------------------
  // process_item
  // ---------------------------------------------------------------------

  /** Lines 39-177, with `now` the clock reading `NOW()` returns. */
  function ProcessItem(s: Store, item: Item, now: nat): (r: Outcome<nat>)
    requires Valid(s)
    ensures Valid(r.store)
    ensures r.Done? ==> r.value in r.store.listings.rows
  {
    match ResolveHost(s, item)
    case Failed(e, s1) => Failed(e, s1)
    case Done(s1, hid) =>
      match ResolveListing(s1, hid, ReadListing(item), now)
      case Failed(e, s2) => Failed(e, s2)
      case Done(s2, lid) =>
        var s3 := ReplaceImages(s2, lid, item.imageUrls.GetOr([]));
        var s4 := s3.(links := DeleteWhere(s3.links, LinkOf(lid)));
        match LinkAmenities(s4, lid, item.amenities.GetOr([]))
        case Failed(e, s5) => Failed(e, s5)
        case Done(s5, _) => Done(s5, lid)
  }

  // ---------------------------------------------------------------------
  // The connection across items
  // ---------------------------------------------------------------------

  /** What one `process_item` call hands to the next: the store, and whether
      the connection still holds rows of a result nobody read. The
      connection is opened without `consume_results` (lines 26-33) and
      `process_item` catches nothing, so after an "Unread result found" the
      rows stay pending and the next `execute` (line 49) raises the same
      error before any statement reaches the database. Only that error
      leaves rows pending: `fetchone` reads a result of at most one row to
      its end, and the other errors come from statements that return no
      rows. */
  datatype Connection = Connection(store: Store, unread: bool)

  /** The outcome is an "Unread result found" rejection. */
  predicate IsUnreadResult(o: Outcome<nat>) {
    o.Failed? && o.error == UnreadResult
  }

  /** One `process_item` call on the connection. */
  function ProcessOnConnection(c: Connection, item: Item, now: nat): (r: (Connection, Outcome<nat>))
    requires Valid(c.store)
    ensures Valid(r.0.store) && r.0.store == r.1.store
    ensures c.unread ==> r.0 == c && r.1 == Failed(UnreadResult, c.store)
    ensures !c.unread ==> r.1 == ProcessItem(c.store, item, now)
    ensures r.0.unread <==> c.unread || IsUnreadResult(r.1)
  {
    if c.unread then (c, Failed(UnreadResult, c.store))
    else
      var o := ProcessItem(c.store, item, now);
      (Connection(o.store, IsUnreadResult(o)), o)
  }

  /** The items of one crawl, in order, through one connection; the
      outcome of each. */
  function ProcessAll(c: Connection, items: seq<Item>, now: nat): (r: (Connection, seq<Outcome<nat>>))
    requires Valid(c.store)
    ensures Valid(r.0.store)
    ensures |r.1| == |items|
    ensures c.unread ==> r.0 == c && forall k | 0 <= k < |items| :: r.1[k] == Failed(UnreadResult, c.store)
    ensures r.0.unread <==> c.unread || exists k | 0 <= k < |items| :: IsUnreadResult(r.1[k])
    decreases |items|
  {
    if items == [] then (c, [])
    else
      var first := ProcessOnConnection(c, items[0], now);
      var later := ProcessAll(first.0, items[1..], now);
      UnreadInCons(first.1, later.1);
      (later.0, [first.1] + later.1)
  }

  lemma UnreadInCons(o: Outcome<nat>, os: seq<Outcome<nat>>)
    ensures (exists k | 0 <= k < |[o] + os| :: IsUnreadResult(([o] + os)[k])) <==>
      IsUnreadResult(o) || exists k | 0 <= k < |os| :: IsUnreadResult(os[k])
  {
    var outs := [o] + os;
    assert outs[0] == o;
    assert forall k | 0 <= k < |os| :: outs[k + 1] == os[k];
  }
}

=== FILE: pipeline_facts.dfy ===
/** What `process_item` guarantees: the frame of each step, the defaults,
    replace-all of images and amenity links, when the link step fails, and
    that running the same item twice changes nothing the first run did not
    (except the listing's update time). */
module PipelineFacts {
  import opened Wrappers
  import opened Tables
  import opened Schema
  import opened Spider
  import opened Pipeline

  /** No name occurs twice. */
  ghost predicate Distinct(names: seq<string>) {
    forall i, j | 0 <= i < j < |names| :: names[i] != names[j]
  }

  /** `a` keeps every row of `s` unchanged. */
  ghost predicate KeepsAmenities(s: Store, a: Store) {
    forall id | id in s.amenities.rows :: id in a.amenities.rows && a.amenities.rows[id] == s.amenities.rows[id]
  }

  /** `a` keeps every link of `s` unchanged. */
  ghost predicate KeepsLinks(s: Store, a: Store) {
    forall id | id in s.links.rows :: id in a.links.rows && a.links.rows[id] == s.links.rows[id]
  }

  ghost predicate HasAmenityNamed(s: Store, n: string) {
    exists id | id in s.amenities.rows :: s.amenities.rows[id].name == n
  }

  // ---------------------------------------------------------------------
  // Linked names
  // ---------------------------------------------------------------------

  /** New amenity rows change no listing's linked names. */
  lemma LinkedNamesAfterNewAmenities(s: Store, a: Store, lid: nat)
    requires Valid(s) && a.links == s.links && KeepsAmenities(s, a)
    ensures LinkedNames(a, lid) == LinkedNames(s, lid)
  {
    forall n ensures n in LinkedNames(a, lid) <==> n in LinkedNames(s, lid) {
      if n in LinkedNames(a, lid) {
        var id :| id in a.links.rows && a.links.rows[id].listing == lid && a.links.rows[id].amenity in a.amenities.rows
          && a.amenities.rows[a.links.rows[id].amenity].name == n;
        assert s.links.rows[id].amenity in s.amenities.rows;
      }
    }
  }

  /** One more link to amenity `aid` adds that amenity's name to its
      listing and to no other. */
  lemma LinkedNamesAfterLink(s: Store, lid: nat, aid: nat)
    requires Valid(s) && aid in s.amenities.rows
    ensures var s2 := s.(links := Insert(s.links, ListingAmenity(lid, aid)).0);
      forall l :: LinkedNames(s2, l) == LinkedNames(s, l) + (if l == lid then {s.amenities.rows[aid].name} else {})
  {
    var (links, nid) := Insert(s.links, ListingAmenity(lid, aid));
    var s2 := s.(links := links);
    forall l ensures LinkedNames(s2, l) == LinkedNames(s, l) + (if l == lid then {s.amenities.rows[aid].name} else {}) {
      forall n ensures n in LinkedNames(s2, l) <==> n in LinkedNames(s, l) + (if l == lid then {s.amenities.rows[aid].name} else {}) {
        if n in LinkedNames(s, l) {
          var id :| id in s.links.rows && s.links.rows[id].listing == l && s.links.rows[id].amenity in s.amenities.rows
            && s.amenities.rows[s.links.rows[id].amenity].name == n;
          assert id != nid;
          assert s2.links.rows[id] == s.links.rows[id];
        }
        if l == lid && n == s.amenities.rows[aid].name {
          assert s2.links.rows[nid] == ListingAmenity(lid, aid);
        }
      }
    }
  }

  /** The link a name resolves to exists already exactly when the name is
      already linked to the listing: amenity names are unique. */
  lemma LinkExistsIffNameLinked(s: Store, lid: nat, n: string)
    requires Valid(s)
    ensures var (s1, aid) := ResolveAmenity(s, n);
      ListingAmenity(lid, aid) in s1.links.rows.Values <==> n in LinkedNames(s, lid)
  {
    var (s1, aid) := ResolveAmenity(s, n);
    var link := ListingAmenity(lid, aid);
    if link in s1.links.rows.Values {
      var id :| id in s1.links.rows && s1.links.rows[id] == link;
      assert s.links.rows[id] == link;
      assert aid in s.amenities.rows;
      assert s.amenities.rows[aid].name == n;
    }
    if n in LinkedNames(s, lid) {
      var id :| id in s.links.rows && s.links.rows[id].listing == lid && s.links.rows[id].amenity in s.amenities.rows
        && s.amenities.rows[s.links.rows[id].amenity].name == n;
      var a := s.links.rows[id].amenity;
      assert HasAmenityNamed(s, n);
      assert s1 == s;
      assert a == aid;
      assert s1.links.rows[id] == link;
    }
  }

  /** The store after resolving `n` and linking it, when the link is new. */
  function AfterLink(s: Store, lid: nat, n: string): (r: Store)
    requires Valid(s)
  {
    var (s1, aid) := ResolveAmenity(s, n);
    s1.(links := Insert(s1.links, ListingAmenity(lid, aid)).0)
  }

  /** One round of the loop at lines 148-174. */
  lemma LinkAmenitiesUnfold(s: Store, lid: nat, names: seq<string>)
    requires Valid(s) && lid in s.listings.rows && names != []
    ensures var (s1, aid) := ResolveAmenity(s, names[0]);
      && (ListingAmenity(lid, aid) in s1.links.rows.Values ==>
            LinkAmenities(s, lid, names) == Failed(DuplicateLink(lid, aid), s1))
      && (ListingAmenity(lid, aid) !in s1.links.rows.Values ==>
            && Valid(AfterLink(s, lid, names[0]))
            && lid in AfterLink(s, lid, names[0]).listings.rows
            && LinkAmenities(s, lid, names) == LinkAmenities(AfterLink(s, lid, names[0]), lid, names[1..]))
  {
  }

  /** The link step never deletes or changes an amenity or an existing
      link. */
  lemma {:induction false} LinkAmenitiesKeepsRows(s: Store, lid: nat, names: seq<string>)
    requires Valid(s) && lid in s.listings.rows
    ensures var r := LinkAmenities(s, lid, names);
      KeepsAmenities(s, r.store) && KeepsLinks(s, r.store)
    decreases |names|
  {
    if names != [] {
      var (s1, aid) := ResolveAmenity(s, names[0]);
      LinkAmenitiesUnfold(s, lid, names);
      if ListingAmenity(lid, aid) !in s1.links.rows.Values {
        var s2 := AfterLink(s, lid, names[0]);
        AfterLinkKeepsRows(s, lid, names[0]);
        LinkAmenitiesKeepsRows(s2, lid, names[1..]);
        KeepsRowsTrans(s, s2, LinkAmenities(s2, lid, names[1..]).store);
      }
    }
  }

  lemma AfterLinkKeepsRows(s: Store, lid: nat, n: string)
    requires Valid(s)
    ensures KeepsAmenities(s, AfterLink(s, lid, n)) && KeepsLinks(s, AfterLink(s, lid, n))
  {
  }

  lemma KeepsRowsTrans(a: Store, b: Store, c: Store)
    requires KeepsAmenities(a, b) && KeepsLinks(a, b)
    requires KeepsAmenities(b, c) && KeepsLinks(b, c)
    ensures KeepsAmenities(a, c) && KeepsLinks(a, c)
  {
  }

  /** The link step leaves other listings' amenity names alone. */
  lemma {:induction false} LinkAmenitiesKeepsOthers(s: Store, lid: nat, names: seq<string>)
    requires Valid(s) && lid in s.listings.rows
    ensures var r := LinkAmenities(s, lid, names);
      forall l | l != lid :: LinkedNames(r.store, l) == LinkedNames(s, l)
    decreases |names|
  {
    if names != [] {
      var (s1, aid) := ResolveAmenity(s, names[0]);
      LinkAmenitiesUnfold(s, lid, names);
      forall l ensures LinkedNames(s1, l) == LinkedNames(s, l) {
        LinkedNamesAfterNewAmenities(s, s1, l);
      }
      if ListingAmenity(lid, aid) !in s1.links.rows.Values {
        LinkedNamesAfterLink(s1, lid, aid);
        LinkAmenitiesKeepsOthers(AfterLink(s, lid, names[0]), lid, names[1..]);
      }
    }
  }

  /** The link step creates no amenity when every name exists already. */
  lemma {:induction false} LinkAmenitiesAddsNoKnownName(s: Store, lid: nat, names: seq<string>)
    requires Valid(s) && lid in s.listings.rows
    requires forall i | 0 <= i < |names| :: HasAmenityNamed(s, names[i])
    ensures LinkAmenities(s, lid, names).store.amenities == s.amenities
    decreases |names|
  {
    if names != [] {
      var (s1, aid) := ResolveAmenity(s, names[0]);
      LinkAmenitiesUnfold(s, lid, names);
      assert HasAmenityNamed(s, names[0]);
      assert s1 == s;
      if ListingAmenity(lid, aid) !in s1.links.rows.Values {
        var s2 := AfterLink(s, lid, names[0]);
        assert s2.amenities == s.amenities;
        forall i | 0 <= i < |names[1..]| ensures HasAmenityNamed(s2, names[1..][i]) {
          assert names[1..][i] == names[i + 1];
          assert HasAmenityNamed(s, names[i + 1]);
        }
        LinkAmenitiesAddsNoKnownName(s2, lid, names[1..]);
      }
    }
  }

  /** The link step never deletes or changes an amenity or an existing
      link, leaves other listings' amenity names alone, and creates no
      amenity whose name already exists. */
  lemma LinkAmenitiesFrame(s: Store, lid: nat, names: seq<string>)
    requires Valid(s) && lid in s.listings.rows
    ensures var r := LinkAmenities(s, lid, names);
      && KeepsAmenities(s, r.store) && KeepsLinks(s, r.store)
      && (forall l | l != lid :: LinkedNames(r.store, l) == LinkedNames(s, l))
      && ((forall i | 0 <= i < |names| :: HasAmenityNamed(s, names[i])) ==> r.store.amenities == s.amenities)
  {
    LinkAmenitiesKeepsRows(s, lid, names);
    LinkAmenitiesKeepsOthers(s, lid, names);
    if forall i | 0 <= i < |names| :: HasAmenityNamed(s, names[i]) {
      LinkAmenitiesAddsNoKnownName(s, lid, names);
    }
  }

  /** Lines 147-174 on a listing: the link step succeeds exactly when the
      names are distinct and none is linked yet, and then adds exactly
      those names. */
  lemma {:induction false} LinkAmenitiesSpec(s: Store, lid: nat, names: seq<string>)
    requires Valid(s) && lid in s.listings.rows
    ensures var r := LinkAmenities(s, lid, names);
      && (r.Done? <==> Distinct(names) && forall i | 0 <= i < |names| :: names[i] !in LinkedNames(s, lid))
      && (r.Done? ==> LinkedNames(r.store, lid) == LinkedNames(s, lid) + set n | n in names)
    decreases |names|
  {
    if names == [] {
      assert (set n | n in names) == {};
    } else {
      var n := names[0];
      var (s1, aid) := ResolveAmenity(s, n);
      LinkAmenitiesUnfold(s, lid, names);
      LinkExistsIffNameLinked(s, lid, n);
      if ListingAmenity(lid, aid) !in s1.links.rows.Values {
        var s2 := AfterLink(s, lid, n);
        LinkedNamesAfterNewAmenities(s, s1, lid);
        LinkedNamesAfterLink(s1, lid, aid);
        assert LinkedNames(s2, lid) == LinkedNames(s, lid) + {n};
        LinkAmenitiesSpec(s2, lid, names[1..]);
        HeadTail(names, LinkedNames(s, lid));
      }
    }
  }

  /** Distinct names none of which is in `linked`, split at the head. */
  lemma HeadTail(names: seq<string>, linked: set<string>)
    requires names != [] && names[0] !in linked
    ensures (Distinct(names) && forall i | 0 <= i < |names| :: names[i] !in linked)
        <==> (Distinct(names[1..]) && forall i | 0 <= i < |names[1..]| :: names[1..][i] !in linked + {names[0]})
    ensures (set m | m in names) == {names[0]} + set m | m in names[1..]
  {
    assert forall i | 1 <= i < |names| :: names[i] == names[1..][i - 1];
    assert names == [names[0]] + names[1..];
  }

  // ---------------------------------------------------------------------
  // Images
  // ---------------------------------------------------------------------

  /** Lines 118-136: afterwards the listing's images are exactly the URLs,
      in order, only the first primary; every other listing's images are
      as they were. */
  lemma ImagesAfterReplace(s: Store, lid: nat, urls: seq<string>)
    requires Valid(s) && lid in s.listings.rows
    ensures ImagesOf(ReplaceImages(s, lid, urls), lid) == ImageRows(lid, urls)
    ensures forall l | l != lid :: ImagesOf(ReplaceImages(s, lid, urls), l) == ImagesOf(s, l)
  {
    var cleared := DeleteWhere(s.images, ImageOf(lid));
    var rows := ImageRows(lid, urls);
    assert IdsBelowNext(cleared);
    SelectAfterInsertAll(cleared, rows, ImageOf(lid));
    SelectAfterDelete(s.images, ImageOf(lid), ImageOf(lid));
    FilterAll(rows, ImageOf(lid));
    forall l | l != lid ensures ImagesOf(ReplaceImages(s, lid, urls), l) == ImagesOf(s, l) {
      SelectAfterInsertAll(cleared, rows, ImageOf(l));
      SelectAfterDelete(s.images, ImageOf(lid), ImageOf(l));
      FilterNone(rows, ImageOf(l));
    }
  }

  // ---------------------------------------------------------------------
  // Host and listing
  // ---------------------------------------------------------------------

  /** Lines 43-67: host resolution inserts at most one host and never
      changes a stored one. */
  lemma HostCountGrowsByAtMostOne(s: Store, item: Item)
    requires Valid(s)
    ensures var r := ResolveHost(s, item);
      && |r.store.hosts.rows| <= |s.hosts.rows| + 1
      && forall id | id in s.hosts.rows :: id in r.store.hosts.rows && r.store.hosts.rows[id] == s.hosts.rows[id]
  {
    var r := ResolveHost(s, item);
    if r.Done? && r.store != s {
      assert r.value !in s.hosts.rows;
      assert r.store.hosts.rows.Keys == s.hosts.rows.Keys + {r.value};
    }
  }

  /** A new host is not a superhost unless the item says so (line 45). */
  lemma NewHostDefaultsToOrdinary(s: Store, item: Item)
    requires Valid(s) && item.hostIsSuperhost.Unassigned?
    ensures var r := ResolveHost(s, item);
      r.Done? && r.value !in s.hosts.rows ==> !r.store.hosts.rows[r.value].isSuperhost
  {
  }

  /** Lines 88-101: an update keeps the listing's identity columns and
      creation time, stamps the update time, and touches no other row. */
  lemma ListingUpdateKeepsIdentity(s: Store, hid: nat, x: ListingInput, now: nat)
    requires Valid(s) && hid in s.hosts.rows
    requires FindListing(s, hid, x).Some?
    ensures var r := ResolveListing(s, hid, x, now);
      r.Done? ==>
        && r.store.listings.rows.Keys == s.listings.rows.Keys
        && (var before, after := s.listings.rows[r.value], r.store.listings.rows[r.value];
            && after.title == before.title && after.location == before.location
            && after.address == before.address && after.host == before.host
            && after.createdAt == before.createdAt && after.updatedAt == now
            && after.pricePerNight == x.price.value && after.currency == x.currency)
        && forall id | id in s.listings.rows && id != r.value :: r.store.listings.rows[id] == s.listings.rows[id]
  {
  }

  /** Lines 102-116: an insert adds exactly one listing, of this host,
      created and updated now. */
  lemma ListingInsertAddsOne(s: Store, hid: nat, x: ListingInput, now: nat)
    requires Valid(s) && hid in s.hosts.rows
    requires FindListing(s, hid, x).None?
    ensures var r := ResolveListing(s, hid, x, now);
      r.Done? ==>
        && |r.store.listings.rows| == |s.listings.rows| + 1
        && r.store.listings.rows[r.value].host == hid
        && r.store.listings.rows[r.value].createdAt == now
        && r.store.listings.rows[r.value].updatedAt == now
        && forall id | id in s.listings.rows :: r.store.listings.rows[id] == s.listings.rows[id]
  {
    var r := ResolveListing(s, hid, x, now);
    if r.Done? {
      assert r.store.listings.rows.Keys == s.listings.rows.Keys + {r.value};
    }
  }

  /** Lines 74 and 78: a missing currency is stored as `USD` and a missing
      review count as 0, on the update and the insert path alike. */
  lemma MissingKeysTakeDefaults(s: Store, hid: nat, item: Item, now: nat)
    requires Valid(s) && hid in s.hosts.rows
    requires item.currency.Unassigned? && item.reviewsCount.Unassigned?
    ensures var r := ResolveListing(s, hid, ReadListing(item), now);
      r.Done? ==>
        && r.store.listings.rows[r.value].currency == DefaultCurrency
        && r.store.listings.rows[r.value].reviewsCount == DefaultReviewsCount
  {
  }

  // ---------------------------------------------------------------------
  // Idempotence
  // ---------------------------------------------------------------------

  /** The only host with the item's name is found again, untouched. */
  lemma SecondHostLookup(s: Store, item: Item, hid: nat)
    requires Valid(s) && Get(item.hostName).Some?
    requires IsOnlyMatch(s.hosts, HostNamed(Get(item.hostName).value), hid)
    ensures ResolveHost(s, item) == Done(s, hid)
  {
    var r := ResolveHost(s, item);
    assert !r.Failed?;
  }

  /** The only listing with the item's key is found again and refreshed,
      when the item's numbers fit their columns. */
  lemma SecondListingLookup(s: Store, hid: nat, x: ListingInput, lid: nat, now: nat)
    requires Valid(s) && hid in s.hosts.rows
    requires x.title.Some? && x.location.Some? && x.price.Some? && NumbersFit(x)
    requires IsOnlyMatch(s.listings, ListingKeyed(x.title.value, x.location.value, hid), lid)
    ensures ResolveListing(s, hid, x, now)
         == Done(s.(listings := Update(s.listings, lid, Refreshed(s.listings.rows[lid], x, x.price.value, now))), lid)
  {
    FindFirstIsFirstMatch(s.listings, ListingKeyed(x.title.value, x.location.value, hid), lid);
  }

  /** A row the listing step has written already holds the item's values:
      writing them again only moves the update time. */
  lemma ListingRowHoldsInput(s: Store, hid: nat, x: ListingInput, now: nat, later: nat)
    requires Valid(s) && hid in s.hosts.rows
    requires ResolveListing(s, hid, x, now).Done?
    ensures var r := ResolveListing(s, hid, x, now);
      x.price.Some? &&
      Refreshed(r.store.listings.rows[r.value], x, x.price.value, later)
        == r.store.listings.rows[r.value].(updatedAt := later)
  {
  }

  /** Clearing a listing's links leaves it no amenity names. */
  lemma ClearedLinks(s: Store, lid: nat)
    requires Valid(s)
    ensures Valid(s.(links := DeleteWhere(s.links, LinkOf(lid))))
    ensures LinkedNames(s.(links := DeleteWhere(s.links, LinkOf(lid))), lid) == {}
  {
    var s4 := s.(links := DeleteWhere(s.links, LinkOf(lid)));
    forall n ensures n !in LinkedNames(s4, lid) {
    }
  }

  /** A linked name has an amenity row. */
  lemma LinkedNameHasAmenity(s: Store, lid: nat, n: string)
    requires n in LinkedNames(s, lid)
    ensures HasAmenityNamed(s, n)
  {
  }

  /** What a successful run leaves behind, in the terms the second run
      needs. */
  lemma SuccessfulRun(s: Store, item: Item, now: nat)
    requires Valid(s) && ProcessItem(s, item, now).Done?
    ensures var r := ProcessItem(s, item, now);
      var x := ReadListing(item);
      var h := ResolveHost(s, item);
      && h.Done?
      && r.store.hosts == h.store.hosts
      && IsOnlyMatch(r.store.hosts, HostNamed(Get(item.hostName).value), h.value)
      && x.title.Some? && x.location.Some? && x.price.Some? && NumbersFit(x)
      && IsOnlyMatch(r.store.listings, ListingKeyed(x.title.value, x.location.value, h.value), r.value)
      && Refreshed(r.store.listings.rows[r.value], x, x.price.value, now)
           == r.store.listings.rows[r.value]
      && ImagesOf(r.store, r.value) == ImageRows(r.value, item.imageUrls.GetOr([]))
      && Distinct(item.amenities.GetOr([]))
      && LinkedNames(r.store, r.value) == set n | n in item.amenities.GetOr([])
  {
    var r := ProcessItem(s, item, now);
    var x := ReadListing(item);
    var h := ResolveHost(s, item);
    var s1, hid := h.store, h.value;
    var l := ResolveListing(s1, hid, x, now);
    var s2, lid := l.store, l.value;
    ListingRowHoldsInput(s1, hid, x, now, now);
    var urls := item.imageUrls.GetOr([]);
    var names := item.amenities.GetOr([]);
    var s3 := ReplaceImages(s2, lid, urls);
    ImagesAfterReplace(s2, lid, urls);
    var s4 := s3.(links := DeleteWhere(s3.links, LinkOf(lid)));
    ClearedLinks(s3, lid);
    LinkAmenitiesSpec(s4, lid, names);
    assert r.store == LinkAmenities(s4, lid, names).store;
  }

  /** Two listings of a host named `n` share the title and location. */
  ghost predicate DuplicateListing(s: Store, n: string, title: string, location: string) {
    exists h | h in s.hosts.rows && s.hosts.rows[h].name == n ::
      !AtMostOneMatch(s.listings, ListingKeyed(title, location, h))
  }

  /** Lines 39-177: a record is rejected exactly when it has no host name,
      its host name or its listing key is shared by two rows, it has no
      title, location or price, a number does not fit its column, or it
      names an amenity twice. A missing or shared host name is caught
      before anything is written. */
  lemma ProcessItemFailsExactly(s: Store, item: Item, now: nat)
    requires Valid(s)
    ensures var r := ProcessItem(s, item, now);
      var x := ReadListing(item);
      && (r.Failed? <==>
            || Get(item.hostName).None?
            || !AtMostOneMatch(s.hosts, HostNamed(Get(item.hostName).value))
            || x.title.None? || x.location.None? || x.price.None?
            || DuplicateListing(s, Get(item.hostName).value, x.title.value, x.location.value)
            || !NumbersFit(x)
            || !Distinct(item.amenities.GetOr([])))
      && (Get(item.hostName).None? ==> r == Failed(NullInNotNullColumn("name"), s))
      && (Get(item.hostName).Some? && !AtMostOneMatch(s.hosts, HostNamed(Get(item.hostName).value)) ==>
            r == Failed(UnreadResult, s))
  {
    var h := ResolveHost(s, item);
    if h.Done? {
      var x := ReadListing(item);
      var n := Get(item.hostName).value;
      if x.title.Some? && x.location.Some? {
        ListingLookupDuplicates(s, item, x);
      }
      var l := ResolveListing(h.store, h.value, x, now);
      if l.Done? {
        var s3 := ReplaceImages(l.store, l.value, item.imageUrls.GetOr([]));
        ClearedLinks(s3, l.value);
        LinkAmenitiesSpec(s3.(links := DeleteWhere(s3.links, LinkOf(l.value))), l.value, item.amenities.GetOr([]));
      }
    }
  }

  /** Once the host is resolved, the listing lookup leaves a row unread
      exactly when two listings of a host with that name share the key: a
      reused host is the only one with the name, and a new host has no
      listings. */
  lemma ListingLookupDuplicates(s: Store, item: Item, x: ListingInput)
    requires Valid(s) && ResolveHost(s, item).Done?
    requires x.title.Some? && x.location.Some?
    ensures var h := ResolveHost(s, item);
      var key := ListingKeyed(x.title.value, x.location.value, h.value);
      && (!AtMostOneMatch(h.store.listings, key) <==> DuplicateListing(s, Get(item.hostName).value, x.title.value, x.location.value))
      && (h.value !in s.hosts.rows ==> FindListing(h.store, h.value, x).None?)
  {
    var h := ResolveHost(s, item);
    var n := Get(item.hostName).value;
    var key := ListingKeyed(x.title.value, x.location.value, h.value);
    if h.value in s.hosts.rows {
      assert h.store == s;
      if DuplicateListing(s, n, x.title.value, x.location.value) {
        var g :| g in s.hosts.rows && s.hosts.rows[g].name == n
          && !AtMostOneMatch(s.listings, ListingKeyed(x.title.value, x.location.value, g));
        assert HostNamed(n)(s.hosts.rows[g]);
        assert g == h.value;
      }
    } else {
      forall id | id in s.listings.rows ensures !key(s.listings.rows[id]) {
        assert s.listings.rows[id].host in s.hosts.rows;
      }
      assert forall g | g in s.hosts.rows :: !HostNamed(n)(s.hosts.rows[g]);
    }
  }

  /** The second run, from a store holding what `SuccessfulRun` describes. */
  lemma SecondRun(t: Store, item: Item, later: nat, hid: nat, lid: nat)
    requires Valid(t) && hid in t.hosts.rows
    requires Get(item.hostName).Some?
    requires IsOnlyMatch(t.hosts, HostNamed(Get(item.hostName).value), hid)
    requires var x := ReadListing(item);
      && x.title.Some? && x.location.Some? && x.price.Some? && NumbersFit(x)
      && IsOnlyMatch(t.listings, ListingKeyed(x.title.value, x.location.value, hid), lid)
      && Refreshed(t.listings.rows[lid], x, x.price.value, later) == t.listings.rows[lid].(updatedAt := later)
    requires Distinct(item.amenities.GetOr([]))
    requires LinkedNames(t, lid) == set n | n in item.amenities.GetOr([])
    ensures var r2 := ProcessItem(t, item, later);
      && r2.Done? && r2.value == lid
      && r2.store.hosts == t.hosts
      && r2.store.amenities == t.amenities
      && r2.store.listings == Update(t.listings, lid, t.listings.rows[lid].(updatedAt := later))
      && ImagesOf(r2.store, lid) == ImageRows(lid, item.imageUrls.GetOr([]))
      && LinkedNames(r2.store, lid) == LinkedNames(t, lid)
  {
    var x := ReadListing(item);
    var urls := item.imageUrls.GetOr([]);
    var names := item.amenities.GetOr([]);
    SecondHostLookup(t, item, hid);
    SecondListingLookup(t, hid, x, lid, later);
    var t2 := t.(listings := Update(t.listings, lid, t.listings.rows[lid].(updatedAt := later)));
    assert LinkedNames(t2, lid) == LinkedNames(t, lid);
    RelinkSameNames(t2, lid, urls, names);
    var t3 := ReplaceImages(t2, lid, urls);
    var t4 := t3.(links := DeleteWhere(t3.links, LinkOf(lid)));
    assert ProcessItem(t, item, later) == Done(LinkAmenities(t4, lid, names).store, lid);
  }

  /** Lines 118-174 on a listing already linked to exactly `names`: the
      images are replaced and the same names are linked again. */
  lemma RelinkSameNames(s: Store, lid: nat, urls: seq<string>, names: seq<string>)
    requires Valid(s) && lid in s.listings.rows
    requires Distinct(names) && LinkedNames(s, lid) == set n | n in names
    ensures var s3 := ReplaceImages(s, lid, urls);
      var r := LinkAmenities(s3.(links := DeleteWhere(s3.links, LinkOf(lid))), lid, names);
      && r.Done?
      && r.store.hosts == s.hosts && r.store.listings == s.listings && r.store.amenities == s.amenities
      && ImagesOf(r.store, lid) == ImageRows(lid, urls)
      && LinkedNames(r.store, lid) == LinkedNames(s, lid)
  {
    var s3 := ReplaceImages(s, lid, urls);
    ImagesAfterReplace(s, lid, urls);
    var s4 := s3.(links := DeleteWhere(s3.links, LinkOf(lid)));
    ClearedLinks(s3, lid);
    LinkAmenitiesSpec(s4, lid, names);
    forall i | 0 <= i < |names| ensures HasAmenityNamed(s4, names[i]) {
      LinkedNameHasAmenity(s, lid, names[i]);
    }
    LinkAmenitiesFrame(s4, lid, names);
  }

  /** Lines 39-177 run twice on the same item: the second run succeeds on
      the same listing and leaves the hosts, the amenities, the listing's
      images and its amenity names as the first run left them; the listing
      row differs only in its update time. */
  lemma ProcessItemIdempotent(s: Store, item: Item, now: nat, later: nat)
    requires Valid(s) && ProcessItem(s, item, now).Done?
    ensures var r1 := ProcessItem(s, item, now);
      var r2 := ProcessItem(r1.store, item, later);
      && r2.Done? && r2.value == r1.value
      && r2.store.hosts == r1.store.hosts
      && r2.store.amenities == r1.store.amenities
      && r2.store.listings
           == Update(r1.store.listings, r1.value, r1.store.listings.rows[r1.value].(updatedAt := later))
      && ImagesOf(r2.store, r1.value) == ImagesOf(r1.store, r1.value)
      && LinkedNames(r2.store, r1.value) == LinkedNames(r1.store, r1.value)
  {
    var r1 := ProcessItem(s, item, now);
    var x := ReadListing(item);
    var hid := ResolveHost(s, item).value;
    SuccessfulRun(s, item, now);
    var row := r1.store.listings.rows[r1.value];
    assert Refreshed(row, x, x.price.value, later) == row.(updatedAt := later) by {
      assert Refreshed(row, x, x.price.value, now) == row;
    }
    SecondRun(r1.store, item, later, hid, r1.value);
  }

  /** One "Unread result found" on a clean connection rejects every later
      item of the crawl with the same error, whatever that item holds, and
      nothing further is written. */
  lemma UnreadResultIsSticky(s: Store, item: Item, rest: seq<Item>, now: nat)
    requires Valid(s) && IsUnreadResult(ProcessItem(s, item, now))
    ensures var r := ProcessAll(Connection(s, false), [item] + rest, now);
      && r.1[0] == ProcessItem(s, item, now)
      && r.0 == Connection(ProcessItem(s, item, now).store, true)
      && forall k | 1 <= k < |r.1| :: r.1[k] == Failed(UnreadResult, r.0.store)
  {
    var items := [item] + rest;
    assert items[0] == item && items[1..] == rest;
  }
}

=== FILE: schema.dfy ===
/** The five tables of the `listings` application and the constraints the
    MySQL tables carry: non-null columns (by the field types below), the
    numeric column ranges, foreign keys, the unique amenity name and the
    unique (listing, amenity) pair. The field defaults and `on_delete=CASCADE`
    of `models.py` are applied by Django's ORM, not by the tables; the
    pipeline supplies every column itself, and `DeleteHost` and
    `DeleteListing` model what the ORM's cascading delete does. */
module Schema {
  import opened Wrappers
  import opened Tables

  /** `Host`. The name is required but not unique. */
  datatype Host = Host(name: string, imageUrl: Option<string>, isSuperhost: bool, joinedDate: Option<string>)

  /** `Listing`. Prices are whole numbers here: every price the scraper
      produces is a digit run. Times are the clock's readings. */
  datatype Listing = Listing(
    title: string,
    location: string,
    address: Option<string>,
    pricePerNight: nat,
    currency: string,
    totalPrice: Option<nat>,
    rating: Option<real>,
    description: Option<string>,
    reviewsCount: int,
    propertyType: Option<string>,
    host: nat,
    createdAt: nat,
    updatedAt: nat)

  /** `ListingImage`. */
  datatype ListingImage = ListingImage(listing: nat, imageUrl: string, isPrimary: bool)

  /** `Amenity`; the name is unique. */
  datatype Amenity = Amenity(name: string)

  /** `ListingAmenity`; the (listing, amenity) pair is unique. */
  datatype ListingAmenity = ListingAmenity(listing: nat, amenity: nat)

  datatype Store = Store(
    hosts: Table<Host>,
    listings: Table<Listing>,
    images: Table<ListingImage>,
    amenities: Table<Amenity>,
    links: Table<ListingAmenity>)

  function EmptyStore(): (s: Store)
    ensures Valid(s)
  {
    Store(Empty(), Empty(), Empty(), Empty(), Empty())
  }

  /** Field defaults of `models.py`; the pipeline supplies the same values
      itself when the item lacks the key. */
  const DefaultCurrency: string := "USD"
  const DefaultReviewsCount: nat := 0
  const DefaultIsSuperhost: bool := false

  /** `DECIMAL(10,2)` keeps eight digits before the point: a whole price
      fits exactly when it is below 10^8. */
  const DecimalLimit: nat := 100000000

  /** `IntegerField` is a signed 32-bit `INT`. */
  const IntMax: nat := 2147483647

  predicate PriceFits(v: nat) {
    v < DecimalLimit
  }

  /** `DECIMAL(3,2)` rounds to two places, half away from zero, and then
      holds -9.99 to 9.99. */
  predicate RatingFits(v: real) {
    -9.995 < v < 9.995
  }

  // ---------------------------------------------------------------------
  // Constraints
  // ---------------------------------------------------------------------

  ghost predicate ListingsHaveHosts(s: Store) {
    forall id | id in s.listings.rows :: s.listings.rows[id].host in s.hosts.rows
  }

  ghost predicate ImagesHaveListings(s: Store) {
    forall id | id in s.images.rows :: s.images.rows[id].listing in s.listings.rows
  }

  ghost predicate LinksHaveEnds(s: Store) {
    forall id | id in s.links.rows ::
      s.links.rows[id].listing in s.listings.rows && s.links.rows[id].amenity in s.amenities.rows
  }

  /** `unique=True` on `Amenity.name`. */
  ghost predicate UniqueAmenityNames(t: Table<Amenity>) {
    forall a, b | a in t.rows && b in t.rows && t.rows[a].name == t.rows[b].name :: a == b
  }

  /** `unique_together = ('listing', 'amenity')`. */
  ghost predicate UniqueLinks(t: Table<ListingAmenity>) {
    forall a, b | a in t.rows && b in t.rows && t.rows[a] == t.rows[b] :: a == b
  }

  ghost predicate CountersAhead(s: Store) {
    && IdsBelowNext(s.hosts) && IdsBelowNext(s.listings) && IdsBelowNext(s.images)
    && IdsBelowNext(s.amenities) && IdsBelowNext(s.links)
  }

  /** Every state the database can be in. */
  ghost predicate Valid(s: Store) {
    && CountersAhead(s)
    && ListingsHaveHosts(s) && ImagesHaveListings(s) && LinksHaveEnds(s)
    && UniqueAmenityNames(s.amenities) && UniqueLinks(s.links)
  }

  // ---------------------------------------------------------------------
  // Views
  // ---------------------------------------------------------------------

  /** `WHERE listing_id = lid` on the image table. */
  function ImageOf(lid: nat): ListingImage -> bool {
    (i: ListingImage) => i.listing == lid
  }

  /** `WHERE listing_id = lid` on the link table. */
  function LinkOf(lid: nat): ListingAmenity -> bool {
    (k: ListingAmenity) => k.listing == lid
  }

  /** `listing.images.order_by('id')`. */
  function ImagesOf(s: Store, lid: nat): seq<ListingImage> {
    Select(s.images, ImageOf(lid))
  }

  /** Names of the amenities linked to listing `lid`. */
  ghost function LinkedNames(s: Store, lid: nat): set<string> {
    set id | id in s.links.rows && s.links.rows[id].listing == lid && s.links.rows[id].amenity in s.amenities.rows
      :: s.amenities.rows[s.links.rows[id].amenity].name
  }

  // ---------------------------------------------------------------------
  // Cascading deletes
  // ---------------------------------------------------------------------

  /** Deleting an amenity deletes its links. */
  function DeleteAmenity(s: Store, aid: nat): (r: Store)
    ensures Valid(s) ==> Valid(r)
    ensures r.hosts == s.hosts && r.listings == s.listings && r.images == s.images
    ensures r.amenities.rows.Keys == s.amenities.rows.Keys - {aid}
    ensures forall id :: id in r.links.rows <==> id in s.links.rows && s.links.rows[id].amenity != aid
  {
    s.(amenities := Remove(s.amenities, aid),
       links := DeleteWhere(s.links, (k: ListingAmenity) => k.amenity == aid))
  }

  /** Deleting a listing deletes its images and amenity links. */
  function DeleteListing(s: Store, lid: nat): (r: Store)
    ensures Valid(s) ==> Valid(r)
    ensures r.hosts == s.hosts && r.amenities == s.amenities
    ensures r.listings.rows.Keys == s.listings.rows.Keys - {lid}
    ensures forall id :: id in r.images.rows <==> id in s.images.rows && s.images.rows[id].listing != lid
    ensures forall id :: id in r.links.rows <==> id in s.links.rows && s.links.rows[id].listing != lid
  {
    s.(listings := Remove(s.listings, lid),
       images := DeleteWhere(s.images, ImageOf(lid)),
       links := DeleteWhere(s.links, LinkOf(lid)))
  }

  /** Ids of the listings of host `hid`. */
  function ListingsOfHost(s: Store, hid: nat): (ids: set<nat>)
    ensures forall id :: id in ids <==> id in s.listings.rows && s.listings.rows[id].host == hid
  {
    set id | id in s.listings.rows && s.listings.rows[id].host == hid
  }

  /** Deleting a host deletes its listings, and with them their images and
      amenity links. */
  function DeleteHost(s: Store, hid: nat): (r: Store)
    ensures Valid(s) ==> Valid(r)
    ensures r.amenities == s.amenities
    ensures r.hosts.rows.Keys == s.hosts.rows.Keys - {hid}
    ensures forall id :: id in r.listings.rows <==> id in s.listings.rows && s.listings.rows[id].host != hid
    ensures forall id :: id in r.images.rows <==>
      id in s.images.rows && s.images.rows[id].listing !in ListingsOfHost(s, hid)
    ensures forall id :: id in r.links.rows <==>
      id in s.links.rows && s.links.rows[id].listing !in ListingsOfHost(s, hid)
  {
    var gone := ListingsOfHost(s, hid);
    s.(hosts := Remove(s.hosts, hid),
       listings := DeleteWhere(s.listings, (l: Listing) => l.host == hid),
       images := DeleteWhere(s.images, (i: ListingImage) => i.listing in gone),
       links := DeleteWhere(s.links, (k: ListingAmenity) => k.listing in gone))
  }
}

=== FILE: schema_facts.dfy ===
/** Consequences of the schema: what the constraints do not rule out, and
    what the cascading deletes keep. */
module SchemaFacts {
  import opened Wrappers
  import opened Tables
  import opened Schema
  import opened Spider
  import opened Pipeline

  /** Host names are not unique: a valid store can hold two hosts of the
      same name. `fetchone()` then returns the older one but leaves the
      other unread, so an item naming that host is rejected. */
  lemma HostNamesMayRepeat()
    ensures var h := Host("Ana", None, false, None);
      var s := EmptyStore().(hosts := Table(map[1 := h, 2 := h], 3));
      && Valid(s)
      && s.hosts.rows[1].name == s.hosts.rows[2].name
      && FindFirst(s.hosts, HostNamed("Ana")) == Some(1)
      && RowsUnread(s.hosts, HostNamed("Ana"), 1)
      && ResolveHost(s, EmptyItem.(hostName := Assigned(Some("Ana")))) == Failed(UnreadResult, s)
  {
    var h := Host("Ana", None, false, None);
    var s := EmptyStore().(hosts := Table(map[1 := h, 2 := h], 3));
    FindFirstIsFirstMatch(s.hosts, HostNamed("Ana"), 1);
    assert HostNamed("Ana")(s.hosts.rows[2]);
  }

  /** `unique=True` makes the amenity named `n` the only match, so the
      lookup at lines 151-155 returns it and leaves no row unread. */
  lemma AmenityLookupIsUnique(s: Store, n: string, a: nat)
    requires Valid(s) && a in s.amenities.rows && s.amenities.rows[a].name == n
    ensures FindFirst(s.amenities, AmenityNamed(n)) == Some(a)
    ensures !RowsUnread(s.amenities, AmenityNamed(n), a)
  {
    FindFirstIsFirstMatch(s.amenities, AmenityNamed(n), a);
  }

  /** Deleting a listing empties its images and amenity names and leaves
      every other listing's alone. */
  lemma DeleteListingKeepsOthers(s: Store, lid: nat)
    requires Valid(s)
    ensures ImagesOf(DeleteListing(s, lid), lid) == []
    ensures LinkedNames(DeleteListing(s, lid), lid) == {}
    ensures forall l | l != lid :: ImagesOf(DeleteListing(s, lid), l) == ImagesOf(s, l)
    ensures forall l | l != lid :: LinkedNames(DeleteListing(s, lid), l) == LinkedNames(s, l)
  {
    var r := DeleteListing(s, lid);
    SelectAfterDelete(s.images, ImageOf(lid), ImageOf(lid));
    forall l | l != lid ensures ImagesOf(r, l) == ImagesOf(s, l) {
      SelectAfterDelete(s.images, ImageOf(lid), ImageOf(l));
    }
    forall l | l != lid ensures LinkedNames(r, l) == LinkedNames(s, l) {
      DeleteListingKeepsNames(s, lid, l);
    }
  }

  lemma DeleteListingKeepsNames(s: Store, lid: nat, l: nat)
    requires Valid(s) && l != lid
    ensures LinkedNames(DeleteListing(s, lid), l) == LinkedNames(s, l)
  {
    var r := DeleteListing(s, lid);
    forall n ensures n in LinkedNames(r, l) <==> n in LinkedNames(s, l) {
      if n in LinkedNames(s, l) {
        var id :| id in s.links.rows && s.links.rows[id].listing == l && s.links.rows[id].amenity in s.amenities.rows
          && s.amenities.rows[s.links.rows[id].amenity].name == n;
        assert id in r.links.rows;
      }
    }
  }

  /** A plain `DELETE` of a host that has a listing would leave that
      listing pointing at nothing, so the foreign key refuses it; Django's
      cascading delete (`DeleteHost`) removes the listing with the host. */
  lemma HostDeleteNeedsCascade(s: Store, hid: nat, lid: nat)
    requires Valid(s) && lid in s.listings.rows && s.listings.rows[lid].host == hid
    ensures !Valid(s.(hosts := Remove(s.hosts, hid)))
    ensures lid !in DeleteHost(s, hid).listings.rows
  {
    var bad := s.(hosts := Remove(s.hosts, hid));
    assert bad.listings.rows[lid].host !in bad.hosts.rows;
  }

  /** Deleting an amenity removes its name from every listing, and no
      other name. */
  lemma DeleteAmenityUnlinksName(s: Store, aid: nat, lid: nat)
    requires Valid(s) && aid in s.amenities.rows
    ensures LinkedNames(DeleteAmenity(s, aid), lid) == LinkedNames(s, lid) - {s.amenities.rows[aid].name}
  {
    var r := DeleteAmenity(s, aid);
    var gone := s.amenities.rows[aid].name;
    forall n ensures n in LinkedNames(r, lid) <==> n in LinkedNames(s, lid) - {gone} {
      if n in LinkedNames(r, lid) {
        UnlinkedNameWasThere(s, aid, lid, n);
      }
      if n in LinkedNames(s, lid) && n != gone {
        OtherNameStaysLinked(s, aid, lid, n);
      }
    }
  }

  lemma UnlinkedNameWasThere(s: Store, aid: nat, lid: nat, n: string)
    requires Valid(s) && aid in s.amenities.rows
    requires n in LinkedNames(DeleteAmenity(s, aid), lid)
    ensures n in LinkedNames(s, lid) && n != s.amenities.rows[aid].name
  {
    var r := DeleteAmenity(s, aid);
    var id :| id in r.links.rows && r.links.rows[id].listing == lid && r.links.rows[id].amenity in r.amenities.rows
      && r.amenities.rows[r.links.rows[id].amenity].name == n;
    assert r.links.rows[id].amenity != aid;
  }

  lemma OtherNameStaysLinked(s: Store, aid: nat, lid: nat, n: string)
    requires Valid(s) && aid in s.amenities.rows
    requires n in LinkedNames(s, lid) && n != s.amenities.rows[aid].name
    ensures n in LinkedNames(DeleteAmenity(s, aid), lid)
  {
    var r := DeleteAmenity(s, aid);
    var id :| id in s.links.rows && s.links.rows[id].listing == lid && s.links.rows[id].amenity in s.amenities.rows
      && s.amenities.rows[s.links.rows[id].amenity].name == n;
    assert s.links.rows[id].amenity != aid;
    assert id in r.links.rows;
  }
}

=== FILE: spider.dfy ===
/** `AirbnbSpider.parse_listing`: how one listing page becomes one scraped
    item. Every CSS selection is abstracted to the string (or list of
    strings) it returns, and every `json.loads` to the value it decodes or
    to `None` where it raised. */
module Spider {
  import opened Wrappers
  import opened Text
  import opened JsonValues

  // ---------------------------------------------------------------------
  // Inputs and outputs
  // ---------------------------------------------------------------------

  /** What `parse_listing` reads from one response. Each `Option<string>` is
      the `.get()` of one selector, each `seq<string>` the `.getall()` of
      one. */
  datatype Page = Page(
    scripts: seq<Option<Json>>,       // json.loads of each script[type="application/json"]
    heading: Option<string>,          // h1::text
    location: Option<string>,         // listing-location
    address: Option<string>,          // listing-address
    priceText: Option<string>,        // listing-price span
    totalPriceText: Option<string>,   // listing-total-price
    ratingText: Option<string>,       // listing-rating
    reviewsText: Option<string>,      // listing-reviews-count
    description: Option<string>,      // listing-description
    propertyType: Option<string>,     // listing-property-type
    images: seq<string>,              // listing-image src
    amenities: seq<string>,           // listing-amenities div texts
    hostName: Option<string>,         // host-profile h2
    hostImage: Option<string>,        // host-profile img src
    superhostBadges: nat,             // number of superhost-badge nodes
    hostJoinedText: Option<string>,   // host-joined-date
    legacyLocation: Option<string>,   // ._9xiloll, no ::text: the element's markup
    legacyPrice: Option<string>,      // ._tyxjp1, no ::text: the element's markup
    legacyImages: seq<string>         // ._6tbg2q img src
  )

  /** `AirbnbListingItem`: every field is a dict key that may never have been
      assigned. */
  datatype Item = Item(
    title: Slot<Option<string>>,
    location: Slot<Option<string>>,
    address: Slot<Option<string>>,
    pricePerNight: Slot<Option<nat>>,
    currency: Slot<string>,
    totalPrice: Slot<Option<nat>>,
    imageUrls: Slot<seq<string>>,
    rating: Slot<Option<real>>,
    description: Slot<Option<string>>,
    reviewsCount: Slot<nat>,
    amenities: Slot<seq<string>>,
    propertyType: Slot<Option<string>>,
    hostName: Slot<Option<string>>,
    hostImage: Slot<Option<string>>,
    hostIsSuperhost: Slot<bool>,
    hostJoined: Slot<Option<string>>
  )

  const EmptyItem: Item := Item(
    Unassigned, Unassigned, Unassigned, Unassigned, Unassigned, Unassigned,
    Unassigned, Unassigned, Unassigned, Unassigned, Unassigned, Unassigned,
    Unassigned, Unassigned, Unassigned, Unassigned)

  /** Python truthiness of an optional string. */
  predicate Truthy(s: Option<string>) {
    s.Some? && s.value != []
  }

  // ---------------------------------------------------------------------
  // Choosing the JSON source
  // ---------------------------------------------------------------------

  /** How the test `'data' in data and 'presentation' in data.get('data', {})`
      ends for one decoded script. */
  datatype Verdict = Chosen | Passed | Raised

  /** Evaluates the test as Python does: `in` raises on non-containers and
      `.get` raises on anything but a dict. */
  function TestScript(v: Json): (r: Verdict)
    ensures r == Chosen <==>
      v.JObject? && "data" in v.fields && Contains(v.fields["data"], "presentation")
    ensures r == Passed <==>
      || PyIn("data", v) == Some(false)
      || (v.JObject? && "data" in v.fields && PyIn("presentation", v.fields["data"]) == Some(false))
  {
    match PyIn("data", v)
    case None => Raised
    case Some(false) => Passed
    case Some(true) =>
      if !v.JObject? then Raised
      else
        match PyIn("presentation", v.fields["data"])
        case None => Raised
        case Some(true) => Chosen
        case Some(false) => Passed
  }

  /** Script `k` decoded and passed the test. */
  predicate Qualifies(scripts: seq<Option<Json>>, k: nat)
    requires k < |scripts|
  {
    scripts[k].Some? && TestScript(scripts[k].value) == Chosen
  }

  /** The loop over the scripts: the index of the first one that decodes and
      passes the test. A script whose decoding or test raises is skipped. */
  function SelectSource(scripts: seq<Option<Json>>): (r: Option<nat>)
    ensures r.None? <==> forall k | 0 <= k < |scripts| :: !Qualifies(scripts, k)
    ensures r.Some? ==> r.value < |scripts| && Qualifies(scripts, r.value)
    ensures r.Some? ==> forall k | 0 <= k < r.value :: !Qualifies(scripts, k)
  {
    SelectFrom(scripts, 0)
  }

  function SelectFrom(scripts: seq<Option<Json>>, from: nat): (r: Option<nat>)
    requires from <= |scripts|
    ensures r.None? <==> forall k | from <= k < |scripts| :: !Qualifies(scripts, k)
    ensures r.Some? ==> from <= r.value < |scripts| && Qualifies(scripts, r.value)
    ensures r.Some? ==> forall k | from <= k < r.value :: !Qualifies(scripts, k)
    decreases |scripts| - from
  {
    if from == |scripts| then None
    else if Qualifies(scripts, from) then Some(from)
    else SelectFrom(scripts, from + 1)
  }

  /** `json_data['data']['presentation'].get('pdpSections', {})` runs without
      raising: both levels are dicts. */
  predicate OpensPresentation(v: Json)
    requires TestScript(v) == Chosen
  {
    var d := v.fields["data"];
    d.JObject? && d.fields["presentation"].JObject?
  }

  // ---------------------------------------------------------------------
  // Field normalisers of the JSON branch
  // ---------------------------------------------------------------------

  predicate IsCurrencySymbol(c: char) {
    c == '$' || c == '€' || c == '£'
  }

  /** `(\$|€|£)(\d+)` matches at `p`. */
  predicate PriceTokenAt(s: string, p: nat) {
    p + 1 < |s| && IsCurrencySymbol(s[p]) && IsDigit(s[p + 1])
  }

  function NextPriceToken(s: string, from: nat): (p: nat)
    requires from <= |s|
    ensures from <= p <= |s|
    ensures forall q | from <= q < p :: !PriceTokenAt(s, q)
    ensures p < |s| ==> PriceTokenAt(s, p)
    decreases |s| - from
  {
    if from == |s| || PriceTokenAt(s, from) then from else NextPriceToken(s, from + 1)
  }

  /** `s[i..j]` is a maximal run of digits starting at `i`. */
  ghost predicate IsRunFrom(s: string, i: nat, j: nat) {
    i < j <= |s| && AllDigits(s[i..j]) && (j == |s| || !IsDigit(s[j]))
  }

  /** `(\$|€|£)(\d+)` matches `s[p..j]`: the symbol at `p`, then the
      maximal digit run `s[p + 1..j]`. */
  ghost predicate PriceMatch(s: string, p: nat, j: nat) {
    PriceTokenAt(s, p) && IsRunFrom(s, p + 1, j)
  }

  /** Lines 86-93: currency and price read together from the price text.
      With a symbol directly followed by digits, the leftmost such symbol is
      the currency and the digit run after it (commas not removed) the
      price; otherwise the currency is `$` and the price is whatever
      `extract_price` makes of the whole text. */
  function ParsePriceText(text: string): (r: (string, Option<nat>))
    ensures (forall p | 0 <= p < |text| :: !PriceTokenAt(text, p)) ==>
      r == ("$", ExtractPrice(Some(text)))
    ensures forall p | 0 <= p < |text| && PriceTokenAt(text, p)
                       && (forall q | 0 <= q < p :: !PriceTokenAt(text, q)) ::
      && r.0 == [text[p]]
      && r.1.Some?
      && exists j: nat :: PriceMatch(text, p, j) && r.1.value == DigitsValue(text[p + 1..j])
  {
    var p := NextPriceToken(text, 0);
    if p < |text| then
      var j := RunEnd(text, p + 1);
      assert PriceMatch(text, p, j);
      ([text[p]], Some(DigitsValue(text[p + 1..j])))
    else ("$", ExtractPrice(Some(text)))
  }

  /** Lines 108-111: the first digit run of the review text, or 0 when it has
      none; the key stays unassigned when the text is missing or empty.
      `None` where `int()` raises: the run is longer than Python's digit
      limit. */
  function ReviewsCount(text: Option<string>): (r: Option<Slot<nat>>)
    ensures r.None? <==> Truthy(text) && FirstRunTooLong(text.value)
    ensures r == Some(Unassigned) <==> !Truthy(text)
    ensures Truthy(text) && NoDigits(text.value) ==> r == Some(Assigned(0))
    ensures r.Some? && r.value.Assigned? && !NoDigits(text.value) ==>
      exists i: nat, j: nat :: IsFirstDigitRun(text.value, i, j) && r.value.value == DigitsValue(text.value[i..j])
  {
    if !Truthy(text) then Some(Unassigned)
    else
      FirstDigitRunFindsAll(text.value);
      match FirstDigitRun(text.value)
      case None => Some(Assigned(0))
      case Some((i, j)) =>
        if j - i > IntMaxStrDigits then None else Some(Assigned(DigitsValue(text.value[i..j])))
  }

  /** One amenity text through `extract_text`: its strip, or nothing when
      that comes out empty. */
  function CleanOne(t: string): (r: seq<string>)
    ensures |r| <= 1
    ensures forall x :: x in r <==> x != [] && IsStripOf(x, t)
  {
    var v := Strip(t);
    StripIsStrip(t);
    forall x | x != [] && IsStripOf(x, t) ensures x == v {
      StripUnique(x, t);
    }
    if v != [] then [v] else []
  }

  /** `x` is what `extract_text` makes of one of the texts, and is not
      empty. */
  ghost predicate IsCleanedFrom(x: string, texts: seq<string>) {
    x != [] && exists i | 0 <= i < |texts| :: IsStripOf(x, texts[i])
  }

  /** Lines 126-129: each amenity text through `extract_text`, dropping the
      ones that come out missing or empty. */
  function CleanAmenities(texts: seq<string>): (r: seq<string>)
    ensures |r| <= |texts|
    ensures forall x :: x in r <==> IsCleanedFrom(x, texts)
  {
    if texts == [] then []
    else
      var head, rest := CleanOne(texts[0]), CleanAmenities(texts[1..]);
      forall x ensures x in head + rest <==> IsCleanedFrom(x, texts) {
        if x in rest {
          CleanedFromTail(x, texts);
        }
        if IsCleanedFrom(x, texts) && x !in head {
          CleanedFromRest(x, texts);
        }
      }
      head + rest
  }

  lemma CleanedFromTail(x: string, texts: seq<string>)
    requires texts != [] && IsCleanedFrom(x, texts[1..])
    ensures IsCleanedFrom(x, texts)
  {
    var j :| 0 <= j < |texts[1..]| && IsStripOf(x, texts[1..][j]);
    assert texts[j + 1] == texts[1..][j];
  }

  lemma CleanedFromRest(x: string, texts: seq<string>)
    requires texts != [] && IsCleanedFrom(x, texts) && !IsStripOf(x, texts[0])
    ensures IsCleanedFrom(x, texts[1..])
  {
    var i :| 0 <= i < |texts| && IsStripOf(x, texts[i]);
    assert texts[i] == texts[1..][i - 1];
  }

  // ---------------------------------------------------------------------
  // Host join date
  // ---------------------------------------------------------------------

  const JoinedPrefix: string := "Joined in "

  /** Python's `\w`, restricted to ASCII. */
  predicate IsWordChar(c: char) {
    ('a' <= c <= 'z') || ('A' <= c <= 'Z') || ('0' <= c <= '9') || c == '_'
  }

  predicate AllWordChars(s: string) {
    forall i | 0 <= i < |s| :: IsWordChar(s[i])
  }

  /** End of the run of word characters that starts at `i`. */
  function WordEnd(s: string, i: nat): (j: nat)
    requires i <= |s|
    ensures i <= j <= |s|
    ensures AllWordChars(s[i..j])
    ensures j == |s| || !IsWordChar(s[j])
    decreases |s| - i
  {
    if i < |s| && IsWordChar(s[i]) then
      var j := WordEnd(s, i + 1);
      assert s[i..j] == [s[i]] + s[i + 1..j];
      j
    else i
  }

  /** `Joined in (\w+ \d{4})` matches at `p`, its `\w+` ending at `e`. */
  ghost predicate JoinedRegexAt(s: string, p: nat, e: nat) {
    && p + |JoinedPrefix| < e
    && e + 5 <= |s|
    && s[p..p + |JoinedPrefix|] == JoinedPrefix
    && AllWordChars(s[p + |JoinedPrefix|..e])
    && s[e] == ' '
    && AllDigits(s[e + 1..e + 5])
  }

  /** The match test the search performs at `p`: `\w+` can only end where
      the word run ends, since a space is not a word character. */
  predicate JoinedAt(s: string, p: nat) {
    && p + |JoinedPrefix| <= |s|
    && s[p..p + |JoinedPrefix|] == JoinedPrefix
    && var e := WordEnd(s, p + |JoinedPrefix|);
       p + |JoinedPrefix| < e && e + 5 <= |s| && s[e] == ' ' && AllDigits(s[e + 1..e + 5])
  }

  /** `JoinedAt` is exactly the regular expression matching at `p`. */
  lemma JoinedAtIsRegex(s: string, p: nat)
    ensures JoinedAt(s, p) <==> exists e: nat :: JoinedRegexAt(s, p, e)
    ensures forall e: nat | JoinedRegexAt(s, p, e) :: e == WordEnd(s, p + |JoinedPrefix|)
  {
    var i := p + |JoinedPrefix|;
    forall e: nat | JoinedRegexAt(s, p, e) ensures e == WordEnd(s, i) {
      var w := WordEnd(s, i);
      assert forall k | i <= k < e :: IsWordChar(s[k]) by {
        forall k | i <= k < e ensures IsWordChar(s[k]) { assert s[i..e][k - i] == s[k]; }
      }
      assert forall k | i <= k < w :: IsWordChar(s[k]) by {
        forall k | i <= k < w ensures IsWordChar(s[k]) { assert s[i..w][k - i] == s[k]; }
      }
    }
    if JoinedAt(s, p) {
      assert JoinedRegexAt(s, p, WordEnd(s, p + |JoinedPrefix|));
    }
  }

  /** No match starts before `p` when the search test fails there. */
  lemma NoMatchBelow(s: string, p: nat)
    requires forall q | 0 <= q < p :: !JoinedAt(s, q)
    ensures forall q: nat, e: nat | q < p :: !JoinedRegexAt(s, q, e)
  {
    forall q: nat, e: nat | q < p ensures !JoinedRegexAt(s, q, e) {
      JoinedAtIsRegex(s, q);
    }
  }

  /** A search that finds nothing before the end finds nothing at all. */
  lemma NoMatchAtAll(s: string)
    requires forall q | 0 <= q < |s| :: !JoinedAt(s, q)
    ensures forall q: nat, e: nat :: !JoinedRegexAt(s, q, e)
  {
    NoMatchBelow(s, |s|);
  }

  function NextJoined(s: string, from: nat): (p: nat)
    requires from <= |s|
    ensures from <= p <= |s|
    ensures forall q | from <= q < p :: !JoinedAt(s, q)
    ensures p < |s| ==> JoinedAt(s, p)
    decreases |s| - from
  {
    if from == |s| || JoinedAt(s, from) then from else NextJoined(s, from + 1)
  }

  const MonthNames: seq<string> := [
    "January", "February", "March", "April", "May", "June", "July",
    "August", "September", "October", "November", "December"]

  /** ASCII lower case. */
  function Lower(c: char): char {
    if 'A' <= c <= 'Z' then (c as int + 32) as char else c
  }

  /** Equal up to ASCII case, as `strptime` compares month names. */
  predicate SameIgnoringCase(a: string, b: string) {
    |a| == |b| && forall i | 0 <= i < |a| :: Lower(a[i]) == Lower(b[i])
  }

  /** `%B`: the number of the full English month name `w`. */
  function MonthNumber(w: string): (m: Option<nat>)
    ensures m.Some? ==> 1 <= m.value <= 12 && SameIgnoringCase(w, MonthNames[m.value - 1])
    ensures m.None? <==> forall k | 0 <= k < 12 :: !SameIgnoringCase(w, MonthNames[k])
  {
    MonthFrom(w, 0)
  }

  function MonthFrom(w: string, k: nat): (m: Option<nat>)
    requires k <= 12
    ensures m.Some? ==> k < m.value <= 12 && SameIgnoringCase(w, MonthNames[m.value - 1])
    ensures m.None? <==> forall k' | k <= k' < 12 :: !SameIgnoringCase(w, MonthNames[k'])
    decreases 12 - k
  {
    if k == 12 then None
    else if SameIgnoringCase(w, MonthNames[k]) then Some(k + 1)
    else MonthFrom(w, k + 1)
  }

  /** Two-digit month number, `%m`. */
  function TwoDigits(m: nat): (r: string)
    requires 1 <= m <= 12
    ensures |r| == 2 && AllDigits(r) && DigitsValue(r) == m
  {
    var r := [('0' as int + m / 10) as char, ('0' as int + m % 10) as char];
    assert r[..1] == [r[0]];
    r
  }

  /** `datetime.strptime(word + ' ' + year, '%B %Y').strftime('%Y-%m-%d')`,
      or `None` where `strptime` raises: the word is not a month name, or
      the year is 0000 (before `datetime.MINYEAR`). */
  function DateOf(word: string, year: string): (r: Option<string>)
    requires |year| == 4 && AllDigits(year)
    ensures r.Some? <==> MonthNumber(word).Some? && DigitsValue(year) >= 1
    ensures r.Some? ==>
      && |r.value| == 10
      && r.value[..4] == year && r.value[4] == '-' && r.value[7..] == "-01"
      && AllDigits(r.value[5..7])
      && 1 <= DigitsValue(r.value[5..7]) <= 12
      && SameIgnoringCase(word, MonthNames[DigitsValue(r.value[5..7]) - 1])
  {
    match MonthNumber(word)
    case None => None
    case Some(m) =>
      if DigitsValue(year) == 0 then None
      else
        var d := year + "-" + TwoDigits(m) + "-01";
        assert d[5..7] == TwoDigits(m);
        Some(d)
  }

  /** `re.search(r'Joined in (\w+ \d{4})', s)`: the start of the match and
      the end of its word, if there is a match. */
  function SearchJoined(s: string): (r: Option<(nat, nat)>)
    ensures r.None? <==> forall p: nat, e: nat :: !JoinedRegexAt(s, p, e)
    ensures r.Some? ==> IsLeftmostJoined(s, r.value.0, r.value.1)
  {
    var p := NextJoined(s, 0);
    if p == |s| then
      NoMatchAtAll(s);
      None
    else
      LeftmostJoined(s, p);
      Some((p, WordEnd(s, p + |JoinedPrefix|)))
  }

  /** Lines 141-151: the host join date. The key stays unassigned when the
      text is missing or empty or the regular expression does not match; a
      match that `strptime` rejects assigns `None`. */
  function JoinedDate(text: Option<string>): (r: Slot<Option<string>>)
    ensures r.Unassigned? <==> !Truthy(text) || forall p: nat, e: nat :: !JoinedRegexAt(text.value, p, e)
    ensures text.Some? ==> forall p: nat, e: nat | IsLeftmostJoined(text.value, p, e) ::
      r == Assigned(MatchDate(text.value, p, e))
  {
    if !Truthy(text) then Unassigned
    else
      match SearchJoined(text.value)
      case None => Unassigned
      case Some((p, e)) =>
        LeftmostJoinedUnique(text.value, p, e);
        Assigned(MatchDate(text.value, p, e))
  }

  /** What `strptime` and `strftime` make of the match at `p`: its word
      and its four digits. */
  function MatchDate(s: string, p: nat, e: nat): Option<string>
    requires IsLeftmostJoined(s, p, e)
  {
    DateOf(s[p + |JoinedPrefix|..e], s[e + 1..e + 5])
  }

  /** `re.search` returns the match at `p`: no match starts earlier. */
  ghost predicate IsLeftmostJoined(s: string, p: nat, e: nat) {
    JoinedRegexAt(s, p, e) && forall q: nat, e': nat | q < p :: !JoinedRegexAt(s, q, e')
  }

  /** There is one leftmost match. */
  lemma LeftmostJoinedUnique(s: string, p: nat, e: nat)
    requires IsLeftmostJoined(s, p, e)
    ensures forall p': nat, e': nat | IsLeftmostJoined(s, p', e') :: p' == p && e' == e
  {
    forall p': nat, e': nat | IsLeftmostJoined(s, p', e') ensures p' == p && e' == e {
      JoinedAtIsRegex(s, p);
      JoinedAtIsRegex(s, p');
    }
  }

  /** Where the search test first succeeds, the regular expression has
      its leftmost match, with the word ending where the word run ends. */
  lemma LeftmostJoined(s: string, p: nat)
    requires p < |s| && JoinedAt(s, p)
    requires forall q | 0 <= q < p :: !JoinedAt(s, q)
    ensures JoinedRegexAt(s, p, WordEnd(s, p + |JoinedPrefix|))
    ensures forall q: nat, e: nat | q < p :: !JoinedRegexAt(s, q, e)
  {
    NoMatchBelow(s, p);
    JoinedAtIsRegex(s, p);
  }

  // ---------------------------------------------------------------------
  // parse_listing
  // ---------------------------------------------------------------------

  /** Lines 75-151, entered once a JSON source has been chosen and opened.
      `floatOf` is Python's `float()`, `None` where it raises. An exception
      is caught by the `except` at line 152 and the item keeps only the
      fields assigned before it: `float()` on the rating text raises before
      line 104 assigns, `int()` on the review digits before line 110 does. */
  function ListingFields(page: Page, floatOf: string -> Option<real>): (r: Item)
    ensures r.title.Assigned? && r.location.Assigned? && r.address.Assigned?
    ensures r.totalPrice.Assigned?
    ensures r.pricePerNight.Assigned? <==> Truthy(page.priceText)
    ensures r.currency.Assigned? <==> Truthy(page.priceText)
    ensures r.rating.Assigned? <==> !Truthy(page.ratingText) || floatOf(page.ratingText.value).Some?
    ensures r.description.Assigned? ==> r.rating.Assigned?
    ensures r.description.Assigned? <==> r.imageUrls.Assigned?
    ensures r.description.Assigned? <==> r.amenities.Assigned?
    ensures r.description.Assigned? <==> r.hostIsSuperhost.Assigned?
    ensures r.hostJoined.Unassigned? || r.hostJoined == JoinedDate(page.hostJoinedText)
  {
    var basics := EmptyItem.(
      title := Assigned(ExtractText(page.heading)),
      location := Assigned(ExtractText(page.location)),
      address := Assigned(ExtractText(page.address)));
    var priced :=
      if Truthy(page.priceText) then
        var (currency, price) := ParsePriceText(page.priceText.value);
        basics.(currency := Assigned(currency), pricePerNight := Assigned(price))
      else basics;
    var totalled := priced.(totalPrice :=
      Assigned(if Truthy(page.totalPriceText) then ExtractPrice(page.totalPriceText) else None));
    if Truthy(page.ratingText) && floatOf(page.ratingText.value).None? then
      totalled
    else
      var rated := totalled.(
        rating := Assigned(if Truthy(page.ratingText) then floatOf(page.ratingText.value) else None));
      match ReviewsCount(page.reviewsText)
      case None => rated
      case Some(reviews) =>
        rated.(
          reviewsCount := reviews,
          description := Assigned(ExtractText(page.description)),
          propertyType := Assigned(ExtractText(page.propertyType)),
          imageUrls := Assigned(page.images),
          amenities := Assigned(CleanAmenities(page.amenities)),
          hostName := Assigned(ExtractText(page.hostName)),
          hostImage := Assigned(page.hostImage),
          hostIsSuperhost := Assigned(page.superhostBadges > 0),
          hostJoined := JoinedDate(page.hostJoinedText))
  }

  /** The item as it leaves the `if json_data:` block (lines 57-153). */
  function JsonPass(page: Page, floatOf: string -> Option<real>): (r: Item)
    ensures SelectSource(page.scripts).None? ==> r == EmptyItem
    ensures r.title.Assigned? <==>
      SelectSource(page.scripts).Some? && OpensPresentation(page.scripts[SelectSource(page.scripts).value].value)
    ensures r.pricePerNight.Assigned? <==> r.currency.Assigned?
    ensures r.hostJoined.Unassigned? || r.hostJoined == JoinedDate(page.hostJoinedText)
  {
    match SelectSource(page.scripts)
    case None => EmptyItem
    case Some(k) =>
      if OpensPresentation(page.scripts[k].value) then ListingFields(page, floatOf)
      else EmptyItem
  }

  /** An optional string Python reads as false. */
  predicate FalsyText(s: Slot<Option<string>>) {
    !Truthy(Get(s))
  }

  /** A price Python reads as false: missing, or zero. */
  predicate FalsyPrice(s: Slot<Option<nat>>) {
    Get(s).None? || Get(s).value == 0
  }

  /** Lines 155-171: the selector fallback. It overwrites title, location,
      price (with currency) and image list, each only when falsy, and
      touches nothing else. */
  function Fallback(item: Item, page: Page): (r: Item)
    ensures r.address == item.address && r.totalPrice == item.totalPrice
    ensures r.rating == item.rating && r.description == item.description
    ensures r.reviewsCount == item.reviewsCount && r.amenities == item.amenities
    ensures r.propertyType == item.propertyType && r.hostName == item.hostName
    ensures r.hostImage == item.hostImage && r.hostIsSuperhost == item.hostIsSuperhost
    ensures r.hostJoined == item.hostJoined
    ensures !FalsyText(item.title) ==> r.title == item.title
    ensures !FalsyText(item.location) ==> r.location == item.location
    ensures !FalsyPrice(item.pricePerNight) ==>
      r.pricePerNight == item.pricePerNight && r.currency == item.currency
    ensures item.imageUrls.GetOr([]) != [] ==> r.imageUrls == item.imageUrls
    ensures FalsyText(item.title) ==> r.title == Assigned(ExtractText(page.heading))
    ensures FalsyText(item.location) ==> r.location == Assigned(ExtractText(page.legacyLocation))
    ensures FalsyPrice(item.pricePerNight) ==>
      r.pricePerNight == Assigned(ExtractPrice(page.legacyPrice)) && r.currency == Assigned("$")
    ensures item.imageUrls.GetOr([]) == [] ==> r.imageUrls == Assigned(page.legacyImages)
  {
    var titled :=
      if FalsyText(item.title) then item.(title := Assigned(ExtractText(page.heading))) else item;
    var located :=
      if FalsyText(titled.location) then titled.(location := Assigned(ExtractText(page.legacyLocation)))
      else titled;
    var priced :=
      if FalsyPrice(located.pricePerNight) then
        located.(
          pricePerNight := Assigned(if Truthy(page.legacyPrice) then ExtractPrice(page.legacyPrice) else None),
          currency := Assigned("$"))
      else located;
    if priced.imageUrls.GetOr([]) == [] then priced.(imageUrls := Assigned(page.legacyImages))
    else priced
  }

  /** `parse_listing`: the JSON pass, then the fallback. Always yields an
      item. */
  function ParseListing(page: Page, floatOf: string -> Option<real>): (r: Item)
    ensures r.title.Assigned? && r.location.Assigned? && r.pricePerNight.Assigned?
    ensures r.currency.Assigned? && r.imageUrls.Assigned?
    ensures SelectSource(page.scripts).None? ==> r == Fallback(EmptyItem, page)
  {
    Fallback(JsonPass(page, floatOf), page)
  }
}

=== FILE: spider_facts.dfy ===
/** Properties of `parse_listing` that relate several of its pieces: which
    scripts can be chosen, what survives an exception in the JSON branch,
    what the fallback guarantees, and the behaviour of the normalisers on
    the inputs the scraper is written for. */
module SpiderFacts {
  import opened Wrappers
  import opened Text
  import opened JsonValues
  import opened Spider

  // ---------------------------------------------------------------------
  // JSON source selection
  // ---------------------------------------------------------------------

  /** A decoded script is chosen exactly when it is an object with a `data`
      key whose value contains `presentation`; scripts on which the test
      raises are skipped like those on which it is false. */
  lemma ChosenShape(v: Json)
    ensures TestScript(v) == Chosen <==>
      v.JObject? && "data" in v.fields && Contains(v.fields["data"], "presentation")
    ensures TestScript(v) == Raised ==>
      (v.JNull? || v.JBool? || v.JNumber? || !v.JObject? || PyIn("presentation", v.fields["data"]).None?)
  {
  }

  /** With no qualifying script the JSON branch is not entered, and the
      item is whatever the fallback alone makes of the page. */
  lemma NoSourceMeansFallbackOnly(page: Page, floatOf: string -> Option<real>)
    requires forall k | 0 <= k < |page.scripts| :: !Qualifies(page.scripts, k)
    ensures ParseListing(page, floatOf) == Fallback(EmptyItem, page)
  {
  }

  /** A chosen source whose `presentation` is not a dict raises at line 71
      or 72, before any field is assigned. */
  lemma UnopenableSourceAssignsNothing(page: Page, floatOf: string -> Option<real>, k: nat)
    requires SelectSource(page.scripts) == Some(k)
    requires !OpensPresentation(page.scripts[k].value)
    ensures JsonPass(page, floatOf) == EmptyItem
  {
  }

  // ---------------------------------------------------------------------
  // The exception inside the JSON branch
  // ---------------------------------------------------------------------

  /** When `float()` raises on the rating text, the fields assigned before
      line 104 keep their values and every later field stays unassigned. */
  lemma RatingFailureKeepsEarlierFields(page: Page, floatOf: string -> Option<real>)
    requires Truthy(page.ratingText) && floatOf(page.ratingText.value).None?
    ensures var it := ListingFields(page, floatOf);
      && it.title == Assigned(ExtractText(page.heading))
      && it.location == Assigned(ExtractText(page.location))
      && it.address == Assigned(ExtractText(page.address))
      && (it.pricePerNight.Assigned? <==> Truthy(page.priceText))
      && (it.currency.Assigned? <==> Truthy(page.priceText))
      && it.totalPrice == Assigned(ExtractPrice(page.totalPriceText))
      && it.rating.Unassigned? && it.reviewsCount.Unassigned?
      && it.description.Unassigned? && it.propertyType.Unassigned?
      && it.imageUrls.Unassigned? && it.amenities.Unassigned?
      && it.hostName.Unassigned? && it.hostImage.Unassigned?
      && it.hostIsSuperhost.Unassigned? && it.hostJoined.Unassigned?
  {
  }

  /** Without that exception every field up to the rating is assigned.
      `int()` then raises on a review digit run longer than Python's limit,
      and the rest of the branch is skipped. Otherwise every field is
      assigned, except the two the source leaves unset on purpose: the
      review count (no review text) and the join date (no text, or no
      regular-expression match). */
  lemma CompletedBranchAssignsAll(page: Page, floatOf: string -> Option<real>)
    requires !Truthy(page.ratingText) || floatOf(page.ratingText.value).Some?
    ensures var it := ListingFields(page, floatOf);
      && it.title.Assigned? && it.location.Assigned? && it.address.Assigned?
      && it.totalPrice.Assigned? && it.rating.Assigned?
      && (it.pricePerNight.Assigned? <==> Truthy(page.priceText))
      && (Truthy(page.reviewsText) && FirstRunTooLong(page.reviewsText.value) ==>
            && it.reviewsCount.Unassigned? && it.description.Unassigned?
            && it.propertyType.Unassigned? && it.imageUrls.Unassigned?
            && it.amenities.Unassigned? && it.hostName.Unassigned?
            && it.hostImage.Unassigned? && it.hostIsSuperhost.Unassigned?
            && it.hostJoined.Unassigned?)
      && (!(Truthy(page.reviewsText) && FirstRunTooLong(page.reviewsText.value)) ==>
            && it.description.Assigned? && it.propertyType.Assigned?
            && it.imageUrls == Assigned(page.images)
            && it.amenities == Assigned(CleanAmenities(page.amenities))
            && it.hostName.Assigned? && it.hostImage == Assigned(page.hostImage)
            && it.hostIsSuperhost == Assigned(page.superhostBadges > 0)
            && (it.reviewsCount.Assigned? <==> Truthy(page.reviewsText)))
  {
  }

  /** Line 110 at Python's digit limit: a review text of 4300 digits is
      counted, one of 4301 makes `int()` raise. */
  lemma ReviewDigitLimit()
    ensures ReviewsCount(Some(seq(4300, _ => '7'))).Some?
    ensures ReviewsCount(Some(seq(4301, _ => '7'))) == None
  {
    var long := seq(4301, _ => '7');
    assert IsFirstDigitRun(long, 0, 4301) by {
      assert long[..0] == [] && long[0..4301] == long;
    }
  }

  /** The JSON pass assigns the price and the currency together: lines
      86-93 set both keys from the price text, or neither. */
  lemma JsonPassPairsPriceAndCurrency(page: Page, floatOf: string -> Option<real>)
    ensures var it := JsonPass(page, floatOf);
      it.pricePerNight.Assigned? <==> it.currency.Assigned?
  {
  }

  // ---------------------------------------------------------------------
  // Amenities
  // ---------------------------------------------------------------------

  /** Cleaning a list is cleaning its two halves and concatenating: the
      texts keep their document order and a repeated amenity stays
      repeated. */
  lemma {:induction false} CleanAmenitiesAppend(a: seq<string>, b: seq<string>)
    ensures CleanAmenities(a + b) == CleanAmenities(a) + CleanAmenities(b)
    decreases |a|
  {
    if a == [] {
      assert a + b == b;
    } else {
      assert (a + b)[1..] == a[1..] + b;
      CleanAmenitiesAppend(a[1..], b);
    }
  }

  /** One amenity text contributes what `extract_text` makes of it, or
      nothing when that is missing or empty. With `CleanAmenitiesAppend`
      this fixes the cleaned list of every page. */
  lemma CleanAmenitiesSingle(t: string)
    ensures CleanAmenities([t]) == [] <==>
      ExtractText(Some(t)).None? || ExtractText(Some(t)) == Some([])
    ensures CleanAmenities([t]) != [] ==> CleanAmenities([t]) == [ExtractText(Some(t)).value]
  {
  }

  /** Two texts with the same non-empty strip give that amenity twice, in
      document order, which the pipeline's unique (listing, amenity) pair
      then rejects. */
  lemma CleanAmenitiesKeepsRepeats(t: string, u: string)
    requires ExtractText(Some(t)).Some? && ExtractText(Some(t)).value != []
    requires ExtractText(Some(u)) == ExtractText(Some(t))
    ensures CleanAmenities([t, u]) == [ExtractText(Some(t)).value, ExtractText(Some(t)).value]
  {
  }

  /** A `DATE` literal in the one shape the spider writes, `YYYY-MM-01`,
      with a year from 0001 and a month from 01 to 12: a date MySQL
      stores as it stands. */
  predicate IsFirstOfMonth(d: string) {
    && |d| == 10
    && AllDigits(d[..4]) && DigitsValue(d[..4]) >= 1 && d[4] == '-'
    && AllDigits(d[5..7]) && 1 <= DigitsValue(d[5..7]) <= 12
    && d[7..] == "-01"
  }

  /** Every join date the JSON branch assigns is missing or a valid first
      of a month, so the `joined_date` column never rejects one. */
  lemma JoinedDateIsValid(text: Option<string>)
    ensures Get(JoinedDate(text)).None? || IsFirstOfMonth(Get(JoinedDate(text)).value)
  {
    if Truthy(text) {
      match SearchJoined(text.value)
      case None =>
      case Some((p, e)) =>
        var d := MatchDate(text.value, p, e);
        assert JoinedDate(text) == Assigned(d);
        if d.Some? {
          assert d.value[..4] == text.value[e + 1..e + 5];
        }
    }
  }

  /** The same for the item `parse_listing` yields: the fallback never
      touches the join date. */
  lemma ParsedJoinDateIsValid(page: Page, floatOf: string -> Option<real>)
    ensures var d := Get(ParseListing(page, floatOf).hostJoined);
      d.None? || IsFirstOfMonth(d.value)
  {
    var it := JsonPass(page, floatOf);
    assert ParseListing(page, floatOf).hostJoined == it.hostJoined;
    JoinedDateIsValid(page.hostJoinedText);
  }

  // ---------------------------------------------------------------------
  // The fallback pass
  // ---------------------------------------------------------------------

  /** Every item `parse_listing` yields has title, location, price,
      currency and image list assigned, so the pipeline's `'USD'` default
      for a missing currency never applies to it. */
  lemma ParsedItemHasCoreKeys(page: Page, floatOf: string -> Option<real>)
    ensures var it := ParseListing(page, floatOf);
      && it.title.Assigned? && it.location.Assigned? && it.pricePerNight.Assigned?
      && it.currency.Assigned? && it.imageUrls.Assigned?
  {
    JsonPassPairsPriceAndCurrency(page, floatOf);
  }

  /** Running the fallback a second time changes nothing: each field it
      fills is either no longer falsy or refilled with the same value. */
  lemma FallbackIdempotent(item: Item, page: Page)
    ensures Fallback(Fallback(item, page), page) == Fallback(item, page)
  {
  }

  /** A price of 0 is falsy at line 163, so the legacy price replaces it
      and the currency is reset to `'$'`, whatever the JSON pass found. */
  lemma ZeroPriceIsReplaced(item: Item, page: Page)
    requires item.pricePerNight == Assigned(Some(0))
    ensures Fallback(item, page).pricePerNight == Assigned(ExtractPrice(page.legacyPrice))
    ensures Fallback(item, page).currency == Assigned("$")
  {
  }

  // ---------------------------------------------------------------------
  // Join date
  // ---------------------------------------------------------------------

  /** The twelve month names differ even ignoring case, so each one reads
      back as its own number. */
  lemma MonthNumberOfName(m: nat)
    requires 1 <= m <= 12
    ensures MonthNumber(MonthNames[m - 1]) == Some(m)
  {
    var w := MonthNames[m - 1];
    forall k | 0 <= k < m - 1 ensures !SameIgnoringCase(w, MonthNames[k]) {
      MonthsDiffer(k, m - 1);
    }
    assert MonthFrom(w, m - 1) == Some(m);
    MonthPrefixFails(w, m - 1);
  }

  /** Two month names already differ, ignoring case, in their first three
      letters. */
  lemma MonthsDiffer(a: nat, b: nat)
    requires a < b < 12
    ensures !SameIgnoringCase(MonthNames[b], MonthNames[a])
  {
    var w, v := MonthNames[b], MonthNames[a];
    if |w| == |v| {
      assert Lower(w[0]) != Lower(v[0]) || Lower(w[1]) != Lower(v[1])
          || Lower(w[2]) != Lower(v[2]);
    }
  }

  /** `MonthFrom` skips every index before `k` that does not match. */
  lemma {:induction false} MonthPrefixFails(w: string, k: nat)
    requires k <= 12
    requires forall k' | 0 <= k' < k :: !SameIgnoringCase(w, MonthNames[k'])
    ensures MonthFrom(w, 0) == MonthFrom(w, k)
    decreases k
  {
    if k > 0 {
      MonthPrefixFails(w, k - 1);
    }
  }

  /** A match at the very start of the text is the one the search takes. */
  lemma JoinedDateAtStart(s: string, e: nat)
    requires JoinedRegexAt(s, 0, e)
    ensures JoinedDate(Some(s)) == Assigned(DateOf(s[|JoinedPrefix|..e], s[e + 1..e + 5]))
  {
    assert IsLeftmostJoined(s, 0, e);
  }

  /** "Joined in <word> <dddd>" at the start of the text, whatever follows:
      the date is what `strptime` makes of the word and the four digits. */
  lemma JoinedPhrase(word: string, year: string, rest: string)
    requires word != [] && AllWordChars(word)
    requires |year| == 4 && AllDigits(year)
    ensures JoinedDate(Some(JoinedPrefix + word + " " + year + rest))
         == Assigned(DateOf(word, year))
  {
    var s := JoinedPrefix + word + " " + year + rest;
    var i := |JoinedPrefix|;
    var e := i + |word|;
    assert s[..i] == JoinedPrefix;
    assert s[i..e] == word;
    assert s[e] == ' ';
    assert s[e + 1..e + 5] == year;
    assert JoinedRegexAt(s, 0, e);
    JoinedDateAtStart(s, e);
  }

  /** "Joined in <Month> <YYYY>", for a year from 0001 on, gives
      `YYYY-MM-01`. */
  lemma JoinedMonthYear(m: nat, year: string)
    requires 1 <= m <= 12
    requires |year| == 4 && AllDigits(year) && DigitsValue(year) >= 1
    ensures JoinedDate(Some(JoinedPrefix + MonthNames[m - 1] + " " + year))
         == Assigned(Some(year + "-" + TwoDigits(m) + "-01"))
  {
    var name := MonthNames[m - 1];
    MonthNameIsWord(m);
    assert JoinedPrefix + name + " " + year + [] == JoinedPrefix + name + " " + year;
    JoinedPhrase(name, year, []);
    DateOfMonthName(m, year);
  }

  /** Every month name is a run of word characters. */
  lemma MonthNameIsWord(m: nat)
    requires 1 <= m <= 12
    ensures MonthNames[m - 1] != [] && AllWordChars(MonthNames[m - 1])
  {
  }

  /** A month name and a year from 0001 on give `YYYY-MM-01`. */
  lemma DateOfMonthName(m: nat, year: string)
    requires 1 <= m <= 12
    requires |year| == 4 && AllDigits(year) && DigitsValue(year) >= 1
    ensures DateOf(MonthNames[m - 1], year) == Some(year + "-" + TwoDigits(m) + "-01")
  {
    MonthNumberOfName(m);
  }

  // ---------------------------------------------------------------------
  // The normalisers on the inputs they are written for
  // ---------------------------------------------------------------------

  /** A currency symbol directly followed by digits at the start of the
      text gives that symbol and the digit run, commas not removed. */
  lemma JointPriceAtStart(sym: char, digits: string, rest: string)
    requires IsCurrencySymbol(sym)
    requires digits != [] && AllDigits(digits)
    requires rest == [] || !IsDigit(rest[0])
    ensures ParsePriceText([sym] + digits + rest) == ([sym], Some(DigitsValue(digits)))
  {
    var s := [sym] + digits + rest;
    var j := 1 + |digits|;
    assert s[1..j] == digits;
    assert PriceTokenAt(s, 0) by { assert s[1] == digits[0]; }
    assert j == |s| || !IsDigit(s[j]) by {
      if j < |s| { assert s[j] == rest[0]; }
    }
    RunEndAt(s, 1, j);
    assert NextPriceToken(s, 0) == 0;
  }

  /** `"$1,234"` gives 1, not 1234: the joint pattern does not drop commas. */
  lemma JointPriceStopsAtComma()
    ensures ParsePriceText("$1,234") == ("$", Some(1))
  {
    assert "$1,234" == ['$'] + "1" + ",234";
    assert DigitsValue("1") == 1 by { assert "1"[..0] == []; }
    JointPriceAtStart('$', "1", ",234");
  }

  /** Blanks around the text go; inner characters stay. */
  lemma ExtractTextPadded(pre: string, core: string, post: string)
    requires AllSpace(pre) && AllSpace(post)
    requires core != [] && NoEdgeSpace(core)
    ensures ExtractText(Some(pre + core + post)) == Some(core)
  {
    var s := pre + core + post;
    var i := |pre|;
    var j := |pre| + |core|;
    assert s[..i] == pre && s[i..j] == core && s[j..] == post;
    assert IsStripOf(core, s);
    StripUnique(core, s);
  }

  /** A price text that is digits and commas only reads as the digits. */
  lemma PriceOfDigitsAndCommas(s: string)
    requires RemoveCommas(s) != [] && AllDigits(RemoveCommas(s))
    ensures ExtractPrice(Some(s)) == Some(DigitsValue(RemoveCommas(s)))
  {
    var t := RemoveCommas(s);
    assert t[0..|t|] == t;
    assert IsDigit(t[0]);
    assert !NoDigits(t);
    NoDigitsRemoveCommas(s);
    var r := ExtractPrice(Some(s));
    var i: nat, j: nat :| IsFirstDigitRun(t, i, j) && r.value == DigitsValue(t[i..j]);
    FirstDigitRunUnique(t, i, j, 0, |t|);
  }

  lemma ThousandsWithoutComma()
    ensures RemoveCommas("1,234") == "1234"
  {
    RemoveCommasAppend("1,", "234");
    RemoveCommasAppend("1", ",");
    RemoveCommasAppend("2", "34");
    RemoveCommasAppend("3", "4");
    assert "1,234" == "1," + "234";
    assert "1," == "1" + ",";
    assert "234" == "2" + "34";
    assert "34" == "3" + "4";
  }

  lemma ValueOf1234()
    ensures DigitsValue("1234") == 1234
  {
    assert "1234"[..3] == "123";
    assert "123"[..2] == "12";
    assert "12"[..1] == "1";
    assert "1"[..0] == [];
  }

  /** `"1,234"` reads as 1234: commas go before the digit run is taken. */
  lemma PriceOfThousands()
    ensures ExtractPrice(Some("1,234")) == Some(1234)
  {
    ThousandsWithoutComma();
    ValueOf1234();
    PriceOfDigitsAndCommas("1,234");
  }

  /** A single digit after digit-free text, and before a non-digit, is
      the price `extract_price` reads. */
  lemma PriceOfLoneDigit(pre: string, d: char, post: string)
    requires NoDigits(pre) && IsDigit(d) && post != [] && !IsDigit(post[0])
    requires ',' !in pre && d != ',' && ',' !in post
    ensures ExtractPrice(Some(pre + [d] + post)) == Some(DigitsValue([d]))
  {
    var s := pre + [d] + post;
    assert ',' !in s;
    RemoveCommasNone(s);
    assert IsFirstDigitRun(s, |pre|, |pre| + 1) by {
      assert s[..|pre|] == pre;
      assert s[|pre|..|pre| + 1] == [d];
      assert s[|pre| + 1] == post[0];
    }
    FirstDigitRunFindsAll(s);
  }

  /** Lines 164-166 select `._tyxjp1` without `::text`, so the fallback
      price is read from the element's markup: whatever price the element
      shows, the digit in its class name is the first digit run. */
  lemma LegacyPriceReadsMarkup(shown: string)
    requires ',' !in shown
    ensures ExtractPrice(Some("<span class=\"_tyxjp1\">" + shown + "</span>")) == Some(1)
  {
    var pre, tag, close := "<span class=\"_tyxjp", "\">", "</span>";
    var post := tag + shown + close;
    assert NoDigits(pre) && ',' !in pre by { }
    assert !IsDigit(post[0]) && ',' !in post by { }
    assert DigitsValue("1") == 1 by { assert "1"[..0] == []; }
    PriceOfLoneDigit(pre, '1', post);
    Regroup(pre, '1', tag, shown, close);
    assert "<span class=\"_tyxjp1\">" == pre + ['1'] + tag;
  }

  lemma Regroup(a: string, d: char, b: string, c: string, e: string)
    ensures a + [d] + (b + c + e) == (a + [d] + b) + c + e
  {
  }

  lemma StripExample()
    ensures ExtractText(Some("  Loft  ")) == Some("Loft")
  {
    assert "  Loft  " == "  " + "Loft" + "  ";
    ExtractTextPadded("  ", "Loft", "  ");
  }

  /** Whitespace-only text comes out as the empty string, not `None`. */
  lemma BlankExample()
    ensures ExtractText(Some(" \t\n")) == Some("")
  {
    ExtractTextOfBlank(" \t\n");
  }

  lemma Year2019()
    ensures DigitsValue("2019") == 2019
  {
    assert "2019"[..3] == "201";
    assert "201"[..2] == "20";
    assert "20"[..1] == "2";
    assert "2"[..0] == [];
  }

  lemma MarchText()
    ensures JoinedPrefix + MonthNames[2] + " " + "2019" == "Joined in March 2019"
  {
  }

  lemma MarchDate()
    ensures "2019" + "-" + TwoDigits(3) + "-01" == "2019-03-01"
  {
  }

  lemma JoinedMarch()
    ensures JoinedDate(Some("Joined in March 2019")) == Assigned(Some("2019-03-01"))
  {
    Year2019();
    JoinedMonthYear(3, "2019");
    MarchText();
    MarchDate();
  }

  /** Year 0000 is before `datetime.MINYEAR`, so `strptime` raises and the
      date is `None`. */
  lemma JoinedYearZero()
    ensures JoinedDate(Some("Joined in March 0000")) == Assigned(None)
  {
    assert "Joined in March 0000" == JoinedPrefix + "March" + " " + "0000" + "";
    assert DigitsValue("0000") == 0 by {
      assert "0000"[..3] == "000";
      assert "000"[..2] == "00";
      assert "00"[..1] == "0";
      assert "0"[..0] == [];
    }
    JoinedPhrase("March", "0000", "");
  }
}

=== FILE: tables.dfy ===
/** An auto-increment SQL table as an immutable value: rows by primary key,
    and the key the next insert receives. Lookups, deletes and ordered
    selects are the only queries the pipeline issues. */
module Tables {
  import opened Wrappers

  /** Rows by id. `next` only grows: ids of deleted rows are never reused,
      as with an InnoDB auto-increment counter. */
  datatype Table<T> = Table(rows: map<nat, T>, next: nat)

  /** A table no insert has touched; MySQL's first id is 1. */
  function Empty<T>(): (t: Table<T>)
    ensures t.rows == map[] && IdsBelowNext(t)
  {
    Table(map[], 1)
  }

  /** Every stored id was handed out by an earlier insert. */
  ghost predicate IdsBelowNext<T>(t: Table<T>) {
    forall id | id in t.rows :: id < t.next
  }

  // ---------------------------------------------------------------------
  // Writes
  // ---------------------------------------------------------------------

  /** `INSERT`: the row gets a fresh id, which `lastrowid` reports. */
  function Insert<T>(t: Table<T>, x: T): (r: (Table<T>, nat))
    ensures IdsBelowNext(t) ==> r.1 !in t.rows && IdsBelowNext(r.0)
    ensures r.0.rows == t.rows[r.1 := x]
    ensures r.0.next > t.next
  {
    (Table(t.rows[t.next := x], t.next + 1), t.next)
  }

  /** One `INSERT` per element, in order: element `k` gets id `t.next + k`. */
  function InsertAll<T>(t: Table<T>, xs: seq<T>): (r: Table<T>)
    ensures r.next == t.next + |xs|
    ensures forall id :: id in r.rows <==> id in t.rows || t.next <= id < r.next
    decreases |xs|
  {
    if xs == [] then t
    else InsertAll(Insert(t, xs[0]).0, xs[1..])
  }

  /** Element `k` of `xs` is stored under id `t.next + k`. */
  lemma {:induction false} InsertAllAt<T>(t: Table<T>, xs: seq<T>, id: nat)
    requires t.next <= id < t.next + |xs|
    ensures id in InsertAll(t, xs).rows
    ensures InsertAll(t, xs).rows[id] == xs[id - t.next]
    decreases |xs|
  {
    if id == t.next {
      InsertAllFirst(t, xs);
    } else {
      var t1 := Insert(t, xs[0]).0;
      InsertAllAt(t1, xs[1..], id);
      assert xs[1..][id - t1.next] == xs[id - t.next];
    }
  }

  /** Rows that were there keep their contents. */
  lemma {:induction false} InsertAllKeeps<T>(t: Table<T>, xs: seq<T>, id: nat)
    requires id in t.rows && id < t.next
    ensures InsertAll(t, xs).rows[id] == t.rows[id]
    decreases |xs|
  {
    if xs != [] {
      InsertAllKeeps(Insert(t, xs[0]).0, xs[1..], id);
    }
  }

  /** The first element gets id `t.next`. */
  lemma InsertAllFirst<T>(t: Table<T>, xs: seq<T>)
    requires xs != []
    ensures t.next in InsertAll(t, xs).rows
    ensures InsertAll(t, xs).rows[t.next] == xs[0]
  {
    var t1 := Insert(t, xs[0]).0;
    InsertAllKeeps(t1, xs[1..], t.next);
  }

  /** `UPDATE ... WHERE id = %s`. */
  function Update<T>(t: Table<T>, id: nat, x: T): (r: Table<T>)
    requires id in t.rows
    ensures r.rows.Keys == t.rows.Keys && r.next == t.next
    ensures r.rows[id] == x
    ensures forall k | k in t.rows && k != id :: r.rows[k] == t.rows[k]
  {
    Table(t.rows[id := x], t.next)
  }

  /** `DELETE ... WHERE p`: rows satisfying `p` go, the others stay as
      they were, and the id counter is not reset. */
  function DeleteWhere<T>(t: Table<T>, p: T -> bool): (r: Table<T>)
    ensures r.next == t.next
    ensures forall id :: id in r.rows <==> id in t.rows && !p(t.rows[id])
    ensures forall id | id in r.rows :: r.rows[id] == t.rows[id]
  {
    Table(map id | id in t.rows && !p(t.rows[id]) :: t.rows[id], t.next)
  }

  /** `DELETE ... WHERE id = %s`. */
  function Remove<T>(t: Table<T>, id: nat): (r: Table<T>)
    ensures r.next == t.next
    ensures r.rows.Keys == t.rows.Keys - {id}
    ensures forall k | k in r.rows :: r.rows[k] == t.rows[k]
  {
    Table(t.rows - {id}, t.next)
  }

  // ---------------------------------------------------------------------
  // Queries
  // ---------------------------------------------------------------------

  /** `id` is the lowest id of a row satisfying `p`. */
  ghost predicate IsFirstMatch<T>(t: Table<T>, p: T -> bool, id: nat) {
    && id in t.rows && p(t.rows[id])
    && forall k | k in t.rows && k < id :: !p(t.rows[k])
  }

  /** `SELECT id ... WHERE p` followed by `fetchone()`: the first row in
      primary-key order, which is the order an InnoDB scan returns. */
  function FindFirst<T>(t: Table<T>, p: T -> bool): (r: Option<nat>)
    ensures r.Some? ==> IsFirstMatch(t, p, r.value)
    ensures IdsBelowNext(t) ==> (r.None? <==> forall k | k in t.rows :: !p(t.rows[k]))
  {
    FindFrom(t, p, 0)
  }

  /** The lowest id at or above `i` of a row satisfying `p`. */
  function FindFrom<T>(t: Table<T>, p: T -> bool, i: nat): (r: Option<nat>)
    ensures r.Some? ==> i <= r.value && r.value in t.rows && p(t.rows[r.value])
    ensures forall k | k in t.rows && i <= k < (if r.Some? then r.value else t.next) :: !p(t.rows[k])
    decreases if i <= t.next then t.next - i else 0
  {
    if i >= t.next then None
    else if i in t.rows && p(t.rows[i]) then Some(i)
    else FindFrom(t, p, i + 1)
  }

  /** `id` is the one row satisfying `p`. */
  ghost predicate IsOnlyMatch<T>(t: Table<T>, p: T -> bool, id: nat) {
    && id in t.rows && p(t.rows[id])
    && forall k | k in t.rows && p(t.rows[k]) :: k == id
  }

  /** No two rows satisfy `p`. */
  ghost predicate AtMostOneMatch<T>(t: Table<T>, p: T -> bool) {
    forall a, b | a in t.rows && b in t.rows && p(t.rows[a]) && p(t.rows[b]) :: a == b
  }

  /** After `fetchone()` has returned the first match `id`, the default
      (unbuffered) cursor of mysql.connector has already read one row ahead.
      It still holds an unread row exactly when a second row matches, and
      the connection's next statement then fails with "Unread result
      found". */
  function RowsUnread<T>(t: Table<T>, p: T -> bool, id: nat): (r: bool)
    requires IdsBelowNext(t) && IsFirstMatch(t, p, id)
    ensures r <==> !IsOnlyMatch(t, p, id)
    ensures r <==> !AtMostOneMatch(t, p)
  {
    FindFrom(t, p, id + 1).Some?
  }

  /** The elements of `xs` satisfying `p`, in order. */
  function Filter<T>(xs: seq<T>, p: T -> bool): (r: seq<T>)
    ensures |r| <= |xs|
  {
    if xs == [] then []
    else (if p(xs[0]) then [xs[0]] else []) + Filter(xs[1..], p)
  }

  /** The rows below id `n` satisfying `p`, in id order. */
  function SelectBelow<T>(t: Table<T>, p: T -> bool, n: nat): (r: seq<T>)
    ensures |r| <= n
  {
    if n == 0 then []
    else
      SelectBelow(t, p, n - 1)
        + (if n - 1 in t.rows && p(t.rows[n - 1]) then [t.rows[n - 1]] else [])
  }

  /** `SELECT ... WHERE p ORDER BY id`. */
  function Select<T>(t: Table<T>, p: T -> bool): seq<T> {
    SelectBelow(t, p, t.next)
  }

  // ---------------------------------------------------------------------
  // Facts about the queries
  // ---------------------------------------------------------------------

  /** Two tables with the same `p`-rows below `n` select the same rows. */
  ghost predicate SameBelow<T>(t: Table<T>, u: Table<T>, p: T -> bool, n: nat) {
    forall id | id < n ::
      && (id in t.rows && p(t.rows[id]) <==> id in u.rows && p(u.rows[id]))
      && (id in t.rows && p(t.rows[id]) ==> t.rows[id] == u.rows[id])
  }

  lemma {:induction false} SelectBelowFrame<T>(t: Table<T>, u: Table<T>, p: T -> bool, n: nat)
    requires SameBelow(t, u, p, n)
    ensures SelectBelow(t, p, n) == SelectBelow(u, p, n)
    decreases n
  {
    if n > 0 {
      SelectBelowFrame(t, u, p, n - 1);
    }
  }

  /** Nothing is selected where no row satisfies `p`. */
  lemma {:induction false} SelectBelowNone<T>(t: Table<T>, p: T -> bool, n: nat)
    requires forall id | id in t.rows && id < n :: !p(t.rows[id])
    ensures SelectBelow(t, p, n) == []
    decreases n
  {
    if n > 0 {
      SelectBelowNone(t, p, n - 1);
    }
  }

  /** Selecting past `t.next` adds nothing when ids stay below it. */
  lemma {:induction false} SelectBelowPastNext<T>(t: Table<T>, p: T -> bool, n: nat)
    requires IdsBelowNext(t) && t.next <= n
    ensures SelectBelow(t, p, n) == Select(t, p)
    decreases n
  {
    if n > t.next {
      SelectBelowPastNext(t, p, n - 1);
    }
  }

  /** The rows of `InsertAll(t, xs)` with ids from `t.next` on are `xs`. */
  lemma {:induction false} SelectInserted<T>(t: Table<T>, xs: seq<T>, p: T -> bool, k: nat)
    requires k <= |xs|
    ensures SelectBelow(InsertAll(t, xs), p, t.next + k)
         == SelectBelow(InsertAll(t, xs), p, t.next) + Filter(xs[..k], p)
    decreases k
  {
    if k == 0 {
      assert xs[..0] == [];
    } else {
      SelectInsertedStep(t, xs, p, k);
      SelectInserted(t, xs, p, k - 1);
      FilterTake(xs, p, k);
      AppendAssoc(SelectBelow(InsertAll(t, xs), p, t.next), Filter(xs[..k - 1], p),
        if p(xs[k - 1]) then [xs[k - 1]] else []);
    }
  }

  lemma AppendAssoc<T>(a: seq<T>, b: seq<T>, c: seq<T>)
    ensures (a + b) + c == a + (b + c)
  {
  }

  lemma SelectInsertedStep<T>(t: Table<T>, xs: seq<T>, p: T -> bool, k: nat)
    requires 0 < k <= |xs|
    ensures var r := InsertAll(t, xs); var x := xs[k - 1];
      SelectBelow(r, p, t.next + k)
        == SelectBelow(r, p, t.next + (k - 1)) + (if p(x) then [x] else [])
  {
    InsertAllAt(t, xs, t.next + (k - 1));
  }

  lemma FilterTake<T>(xs: seq<T>, p: T -> bool, k: nat)
    requires 0 < k <= |xs|
    ensures Filter(xs[..k], p) == Filter(xs[..k - 1], p) + (if p(xs[k - 1]) then [xs[k - 1]] else [])
  {
    assert xs[..k] == xs[..k - 1] + [xs[k - 1]];
    FilterSnoc(xs[..k - 1], xs[k - 1], p);
  }

  lemma {:induction false} FilterSnoc<T>(xs: seq<T>, x: T, p: T -> bool)
    ensures Filter(xs + [x], p) == Filter(xs, p) + (if p(x) then [x] else [])
    decreases |xs|
  {
    if xs == [] {
      assert xs + [x] == [x];
      assert [x][1..] == [];
    } else {
      var head := if p(xs[0]) then [xs[0]] else [];
      assert (xs + [x])[0] == xs[0];
      assert (xs + [x])[1..] == xs[1..] + [x];
      assert Filter(xs + [x], p) == head + Filter(xs[1..] + [x], p);
      FilterSnoc(xs[1..], x, p);
      AppendAssoc(head, Filter(xs[1..], p), if p(x) then [x] else []);
    }
  }

  /** `Filter` keeps a sequence whose elements all satisfy `p`. */
  lemma {:induction false} FilterAll<T>(xs: seq<T>, p: T -> bool)
    requires forall i | 0 <= i < |xs| :: p(xs[i])
    ensures Filter(xs, p) == xs
    decreases |xs|
  {
    if xs != [] {
      assert p(xs[0]);
      assert forall i | 0 <= i < |xs[1..]| :: p(xs[1..][i]) by {
        forall i | 0 <= i < |xs[1..]| ensures p(xs[1..][i]) { assert xs[1..][i] == xs[i + 1]; }
      }
      FilterAll(xs[1..], p);
    }
  }

  /** `Filter` drops a sequence none of whose elements satisfies `p`. */
  lemma {:induction false} FilterNone<T>(xs: seq<T>, p: T -> bool)
    requires forall i | 0 <= i < |xs| :: !p(xs[i])
    ensures Filter(xs, p) == []
    decreases |xs|
  {
    if xs != [] {
      assert !p(xs[0]);
      assert forall i | 0 <= i < |xs[1..]| :: !p(xs[1..][i]) by {
        forall i | 0 <= i < |xs[1..]| ensures !p(xs[1..][i]) { assert xs[1..][i] == xs[i + 1]; }
      }
      FilterNone(xs[1..], p);
    }
  }

  /** Inserting in order appends to the ordered select exactly the new
      elements satisfying `p`. */
  lemma SelectAfterInsertAll<T>(t: Table<T>, xs: seq<T>, p: T -> bool)
    requires IdsBelowNext(t)
    ensures Select(InsertAll(t, xs), p) == Select(t, p) + Filter(xs, p)
  {
    var r := InsertAll(t, xs);
    SelectInserted(t, xs, p, |xs|);
    assert xs[..|xs|] == xs;
    InsertAllSameBelow(t, xs, p);
    SelectBelowFrame(r, t, p, t.next);
  }

  /** Below `t.next`, `InsertAll` leaves the table as it was. */
  lemma InsertAllSameBelow<T>(t: Table<T>, xs: seq<T>, p: T -> bool)
    ensures SameBelow(InsertAll(t, xs), t, p, t.next)
  {
    forall id | id in t.rows && id < t.next ensures InsertAll(t, xs).rows[id] == t.rows[id] {
      InsertAllKeeps(t, xs, id);
    }
  }

  /** After `DELETE ... WHERE q`, no row satisfying `q` is selected, and a
      select for rows `q` never covers is unaffected. */
  lemma SelectAfterDelete<T>(t: Table<T>, q: T -> bool, p: T -> bool)
    ensures (forall x :: p(x) ==> q(x)) ==> Select(DeleteWhere(t, q), p) == []
    ensures (forall x :: p(x) ==> !q(x)) ==> Select(DeleteWhere(t, q), p) == Select(t, p)
  {
    var r := DeleteWhere(t, q);
    if forall x :: p(x) ==> q(x) {
      SelectBelowNone(r, p, r.next);
    }
    if forall x :: p(x) ==> !q(x) {
      SelectBelowFrame(r, t, p, t.next);
    }
  }

  /** `FindFirst` is determined by the rows it can see. */
  lemma FirstMatchUnique<T>(t: Table<T>, p: T -> bool, a: nat, b: nat)
    requires IsFirstMatch(t, p, a) && IsFirstMatch(t, p, b)
    ensures a == b
  {
  }

  /** What `FindFirst` returns is the first match, and a first match is
      what it returns. */
  lemma FindFirstIsFirstMatch<T>(t: Table<T>, p: T -> bool, id: nat)
    requires IdsBelowNext(t)
    ensures FindFirst(t, p) == Some(id) <==> IsFirstMatch(t, p, id)
  {
    var r := FindFirst(t, p);
    if IsFirstMatch(t, p, id) {
      assert r.Some?;
    }
  }
}

=== FILE: text.dfy ===
/** The scraper's pure string normalisers: Python's `str.strip()`, the
    leftmost digit run that `re.search(r'(\d+)', ...)` finds, and the
    spider's `extract_text` / `extract_price` helpers built from them. */
module Text {
  import opened Wrappers

  // ---------------------------------------------------------------------
  // Whitespace and str.strip()
  // ---------------------------------------------------------------------

  /** Python's `str.isspace()` for one character: the characters that
      `str.strip()` with no argument removes. */
  predicate IsSpace(c: char) {
    || c == ' '
    || ('\t' <= c <= '\r')
    || ('\U{1C}' <= c <= '\U{1F}')
    || c == '\U{85}' || c == '\U{A0}' || c == '\U{1680}'
    || ('\U{2000}' <= c <= '\U{200A}')
    || c == '\U{2028}' || c == '\U{2029}' || c == '\U{202F}'
    || c == '\U{205F}' || c == '\U{3000}'
  }

  predicate AllSpace(s: string) {
    forall i | 0 <= i < |s| :: IsSpace(s[i])
  }

  /** Neither end of `s` is whitespace. */
  predicate NoEdgeSpace(s: string) {
    s == [] || (!IsSpace(s[0]) && !IsSpace(s[|s| - 1]))
  }

  /** First index at or after `i` that is not whitespace, or `|s|`. */
  function SkipSpace(s: string, i: nat): (k: nat)
    requires i <= |s|
    ensures i <= k <= |s|
    ensures forall m | i <= m < k :: IsSpace(s[m])
    ensures k == |s| || !IsSpace(s[k])
    decreases |s| - i
  {
    if i < |s| && IsSpace(s[i]) then SkipSpace(s, i + 1) else i
  }

  /** Going back from `j` to no lower than `lo`, the index just after the
      last character that is not whitespace. */
  function SkipSpaceBack(s: string, lo: nat, j: nat): (k: nat)
    requires lo <= j <= |s|
    ensures lo <= k <= j
    ensures forall m | k <= m < j :: IsSpace(s[m])
    ensures k == lo || !IsSpace(s[k - 1])
    decreases j
  {
    if lo < j && IsSpace(s[j - 1]) then SkipSpaceBack(s, lo, j - 1) else j
  }

  /** `r` is `s` with its maximal whitespace prefix and suffix removed: the
      meaning of Python's `s.strip()`. */
  ghost predicate IsStripOf(r: string, s: string) {
    exists i, j | 0 <= i <= j <= |s| ::
      && r == s[i..j]
      && AllSpace(s[..i])
      && AllSpace(s[j..])
      && NoEdgeSpace(r)
  }

  /** Python's `s.strip()`. */
  function Strip(s: string): string {
    var i := SkipSpace(s, 0);
    s[i..SkipSpaceBack(s, i, |s|)]
  }

  /** A stretch of whitespace, read by index, as a slice. */
  lemma SpaceSlice(s: string, a: nat, b: nat)
    requires a <= b <= |s| && forall m | a <= m < b :: IsSpace(s[m])
    ensures AllSpace(s[a..b])
  {
    forall k | 0 <= k < b - a ensures IsSpace(s[a..b][k]) {
      assert s[a..b][k] == s[a + k];
    }
  }

  /** `Strip` computes the strip of its input. */
  lemma StripIsStrip(s: string)
    ensures IsStripOf(Strip(s), s)
  {
    var i := SkipSpace(s, 0);
    var j := SkipSpaceBack(s, i, |s|);
    SpaceSlice(s, 0, i);
    SpaceSlice(s, j, |s|);
    assert s[..i] == s[0..i] && s[j..] == s[j..|s|];
    var r := s[i..j];
    if r != [] {
      assert r[0] == s[i] && r[|r| - 1] == s[j - 1];
    }
    assert NoEdgeSpace(r);
  }

  /** Cutting maximal whitespace from both ends at `i` and `j` is `Strip`. */
  lemma StripAt(s: string, i: nat, j: nat)
    requires i < j <= |s|
    requires AllSpace(s[..i]) && AllSpace(s[j..])
    requires !IsSpace(s[i]) && !IsSpace(s[j - 1])
    ensures Strip(s) == s[i..j]
  {
    var a := SkipSpace(s, 0);
    assert a == i;
    var b := SkipSpaceBack(s, i, |s|);
    assert b == j;
  }

  /** A string that is whitespace throughout strips to the empty string. */
  lemma StripBlank(s: string)
    requires AllSpace(s)
    ensures Strip(s) == []
  {
  }

  /** Whitespace before and after the same cut is whitespace throughout. */
  lemma SpaceAround(s: string, i: nat)
    requires i <= |s| && AllSpace(s[..i]) && AllSpace(s[i..])
    ensures AllSpace(s)
  {
    forall k | 0 <= k < |s| ensures IsSpace(s[k]) {
      if k < i { assert s[k] == s[..i][k]; } else { assert s[k] == s[i..][k - i]; }
    }
  }

  /** At most one string is the strip of `s`, so `IsStripOf` pins the result
      of `s.strip()` down completely. */
  lemma StripUnique(r: string, s: string)
    requires IsStripOf(r, s)
    ensures r == Strip(s)
  {
    var i: nat, j: nat :| 0 <= i <= j <= |s| && r == s[i..j] && AllSpace(s[..i])
      && AllSpace(s[j..]) && NoEdgeSpace(r);
    if r == [] {
      SpaceAround(s, i);
      StripBlank(s);
    } else {
      assert s[i] == r[0] && s[j - 1] == r[|r| - 1];
      StripAt(s, i, j);
    }
  }

  /** Stripping twice is stripping once. */
  lemma StripIdempotent(s: string)
    ensures Strip(Strip(s)) == Strip(s)
  {
    var r := Strip(s);
    StripIsStrip(s);
    assert r == r[0..|r|] && r[..0] == [] && r[|r|..] == [];
    var i, j :| 0 <= i <= j <= |s| && r == s[i..j] && AllSpace(s[..i])
      && AllSpace(s[j..]) && NoEdgeSpace(r);
    assert IsStripOf(r, r);
    StripUnique(r, r);
  }

  /** The spider's `extract_text`: `None` for a missing or empty string,
      otherwise the string stripped (possibly to the empty string). */
  function ExtractText(text: Option<string>): (r: Option<string>)
    ensures r.None? <==> text.None? || text.value == []
    ensures r.Some? ==> IsStripOf(r.value, text.value)
  {
    if text.None? || text.value == [] then None
    else
      StripIsStrip(text.value);
      Some(Strip(text.value))
  }

  /** Whitespace-only input comes back as the empty string, not as `None`. */
  lemma ExtractTextOfBlank(s: string)
    requires s != [] && AllSpace(s)
    ensures ExtractText(Some(s)) == Some([])
  {
    var r := ExtractText(Some(s));
    assert IsStripOf([], s) by {
      assert [] == s[|s|..|s|] && s[..|s|] == s && s[|s|..] == [];
    }
    StripUnique([], s);
  }

  /** `extract_text` is idempotent on its output, except that an output of
      `""` reads as missing the second time round. */
  lemma ExtractTextIdempotent(text: Option<string>)
    ensures var r := ExtractText(text);
      r.Some? && r.value != [] ==> ExtractText(r) == r
    ensures ExtractText(text) == Some([]) ==> ExtractText(ExtractText(text)) == None
  {
    if text.Some? && text.value != [] {
      StripIsStrip(text.value);
      StripUnique(ExtractText(text).value, text.value);
      StripIdempotent(text.value);
    }
  }

  // ---------------------------------------------------------------------
  // Digits and the leftmost digit run
  // ---------------------------------------------------------------------

  /** Python's `\d`, restricted to ASCII. */
  predicate IsDigit(c: char) {
    '0' <= c <= '9'
  }

  predicate AllDigits(s: string) {
    forall i | 0 <= i < |s| :: IsDigit(s[i])
  }

  predicate NoDigits(s: string) {
    forall i | 0 <= i < |s| :: !IsDigit(s[i])
  }

  function Pow10(n: nat): (p: nat)
    ensures p >= 1
  {
    if n == 0 then 1 else 10 * Pow10(n - 1)
  }

  /** The number a run of decimal digits denotes, as Python's `int()` /
      `float()` read it. */
  function DigitsValue(ds: string): (n: nat)
    requires AllDigits(ds)
    ensures n < Pow10(|ds|)
  {
    if ds == [] then 0
    else
      var v := DigitsValue(ds[..|ds| - 1]);
      var d := (ds[|ds| - 1] as int) - ('0' as int);
      assert v * 10 + d < Pow10(|ds| - 1) * 10 by {
        assert v + 1 <= Pow10(|ds| - 1);
        assert (v + 1) * 10 <= Pow10(|ds| - 1) * 10;
      }
      v * 10 + d
  }

  /** `s[i..j]` is what `re.search(r'(\d+)', s)` matches: the leftmost run of
      digits, taken as long as it goes. */
  ghost predicate IsFirstDigitRun(s: string, i: nat, j: nat) {
    && i < j <= |s|
    && NoDigits(s[..i])
    && AllDigits(s[i..j])
    && (j == |s| || !IsDigit(s[j]))
  }

  /** End of the digit run that starts at `i`. */
  function RunEnd(s: string, i: nat): (j: nat)
    requires i <= |s|
    ensures i <= j <= |s|
    ensures AllDigits(s[i..j])
    ensures j == |s| || !IsDigit(s[j])
    decreases |s| - i
  {
    if i < |s| && IsDigit(s[i]) then
      var j := RunEnd(s, i + 1);
      assert s[i..j] == [s[i]] + s[i + 1..j];
      j
    else i
  }

  /** `RunEnd` finds the only end a maximal digit run can have. */
  lemma RunEndAt(s: string, i: nat, j: nat)
    requires i <= j <= |s| && AllDigits(s[i..j]) && (j == |s| || !IsDigit(s[j]))
    ensures RunEnd(s, i) == j
  {
    var r := RunEnd(s, i);
    assert forall k | i <= k < j :: IsDigit(s[k]) by {
      forall k | i <= k < j ensures IsDigit(s[k]) { assert s[i..j][k - i] == s[k]; }
    }
    assert forall k | i <= k < r :: IsDigit(s[k]) by {
      forall k | i <= k < r ensures IsDigit(s[k]) { assert s[i..r][k - i] == s[k]; }
    }
  }

  /** First index at or after `from` holding a digit, or `|s|`. */
  function NextDigit(s: string, from: nat): (i: nat)
    requires from <= |s|
    ensures from <= i <= |s|
    ensures forall k | from <= k < i :: !IsDigit(s[k])
    ensures i < |s| ==> IsDigit(s[i])
    decreases |s| - from
  {
    if from == |s| || IsDigit(s[from]) then from else NextDigit(s, from + 1)
  }

  /** `re.search(r'(\d+)', s)`: the span of the match, if any. */
  function FirstDigitRun(s: string): (r: Option<(nat, nat)>)
    ensures r.None? <==> NoDigits(s)
    ensures r.Some? ==> IsFirstDigitRun(s, r.value.0, r.value.1)
  {
    var i := NextDigit(s, 0);
    if i == |s| then None
    else
      var j := RunEnd(s, i);
      assert NoDigits(s[..i]) by {
        forall k | 0 <= k < i ensures !IsDigit(s[..i][k]) { assert s[..i][k] == s[k]; }
      }
      assert s[i] == s[i..j][0];
      Some((i, j))
  }

  /** The leftmost maximal digit run is unique. */
  lemma FirstDigitRunUnique(s: string, i: nat, j: nat, i': nat, j': nat)
    requires IsFirstDigitRun(s, i, j) && IsFirstDigitRun(s, i', j')
    ensures i == i' && j == j'
  {
    assert IsDigit(s[i]) by { assert s[i..j][0] == s[i]; }
    assert IsDigit(s[i']) by { assert s[i'..j'][0] == s[i']; }
    assert forall k | 0 <= k < i :: !IsDigit(s[k]) by {
      forall k | 0 <= k < i ensures !IsDigit(s[k]) { assert s[..i][k] == s[k]; }
    }
    assert forall k | 0 <= k < i' :: !IsDigit(s[k]) by {
      forall k | 0 <= k < i' ensures !IsDigit(s[k]) { assert s[..i'][k] == s[k]; }
    }
    assert forall k | i <= k < j :: IsDigit(s[k]) by {
      forall k | i <= k < j ensures IsDigit(s[k]) { assert s[i..j][k - i] == s[k]; }
    }
    assert forall k | i' <= k < j' :: IsDigit(s[k]) by {
      forall k | i' <= k < j' ensures IsDigit(s[k]) { assert s[i'..j'][k - i'] == s[k]; }
    }
  }

  /** `FirstDigitRun` finds every leftmost maximal digit run there is. */
  lemma FirstDigitRunFindsAll(s: string)
    ensures forall i: nat, j: nat | IsFirstDigitRun(s, i, j) :: FirstDigitRun(s) == Some((i, j))
  {
    forall i: nat, j: nat | IsFirstDigitRun(s, i, j) ensures FirstDigitRun(s) == Some((i, j)) {
      assert IsDigit(s[i]) by { assert s[i..j][0] == s[i]; }
      var r := FirstDigitRun(s);
      FirstDigitRunUnique(s, i, j, r.value.0, r.value.1);
    }
  }

  /** Python's default cap on the digits `int()` converts from a string
      (`sys.get_int_max_str_digits()`); a longer string raises
      `ValueError`. */
  const IntMaxStrDigits: nat := 4300

  /** The leftmost digit run of `s` is too long for `int()`. */
  ghost predicate FirstRunTooLong(s: string) {
    exists i: nat, j: nat :: IsFirstDigitRun(s, i, j) && j - i > IntMaxStrDigits
  }

  /** The digit run `re.search(r'(\d+)', s)` would return, as a number. */
  function FirstNumber(s: string): (r: Option<nat>)
    ensures r.None? <==> NoDigits(s)
    ensures r.Some? ==> exists i: nat, j: nat :: IsFirstDigitRun(s, i, j) && r.value == DigitsValue(s[i..j])
  {
    match FirstDigitRun(s)
    case None => None
    case Some((i, j)) => Some(DigitsValue(s[i..j]))
  }

  // ---------------------------------------------------------------------
  // extract_price
  // ---------------------------------------------------------------------

  /** `s.replace(',', '')`. */
  function RemoveCommas(s: string): (r: string)
    ensures ',' !in r
    ensures |r| <= |s|
    ensures forall c | c != ',' :: multiset(r)[c] == multiset(s)[c]
  {
    if s == [] then []
    else
      assert s == [s[0]] + s[1..];
      var rest := RemoveCommas(s[1..]);
      if s[0] == ',' then rest else [s[0]] + rest
  }

  /** `replace` works character by character, so it distributes over
      concatenation: order and every non-comma character are kept. */
  lemma {:induction false} RemoveCommasAppend(a: string, b: string)
    ensures RemoveCommas(a + b) == RemoveCommas(a) + RemoveCommas(b)
    decreases |a|
  {
    if a == [] {
      assert a + b == b;
    } else {
      assert (a + b)[1..] == a[1..] + b;
      assert (a + b)[0] == a[0];
      RemoveCommasAppend(a[1..], b);
    }
  }

  /** Without commas there is nothing to remove. */
  lemma {:induction false} RemoveCommasNone(s: string)
    requires ',' !in s
    ensures RemoveCommas(s) == s
  {
    if s != [] {
      assert s == [s[0]] + s[1..];
      RemoveCommasNone(s[1..]);
    }
  }

  /** Dropping commas neither adds nor removes digits. */
  lemma NoDigitsRemoveCommas(s: string)
    ensures NoDigits(RemoveCommas(s)) <==> NoDigits(s)
  {
    var r := RemoveCommas(s);
    if !NoDigits(s) {
      var k :| 0 <= k < |s| && IsDigit(s[k]);
      assert s[k] in multiset(s);
      assert s[k] in multiset(r);
      assert s[k] in r;
      var m :| 0 <= m < |r| && r[m] == s[k];
    }
    if !NoDigits(r) {
      var k :| 0 <= k < |r| && IsDigit(r[k]);
      assert r[k] in multiset(r);
      assert r[k] in multiset(s);
      assert r[k] in s;
      var m :| 0 <= m < |s| && s[m] == r[k];
    }
  }

  /** The spider's `extract_price`: commas dropped, then the leftmost maximal
      digit run read as a whole number; a decimal part is ignored. `None` for
      a missing or empty string, or one without digits. */
  function ExtractPrice(text: Option<string>): (r: Option<nat>)
    ensures r.None? <==> text.None? || NoDigits(text.value)
    ensures r.Some? ==> exists i: nat, j: nat ::
      && IsFirstDigitRun(RemoveCommas(text.value), i, j)
      && r.value == DigitsValue(RemoveCommas(text.value)[i..j])
  {
    if text.None? || text.value == [] then None
    else
      NoDigitsRemoveCommas(text.value);
      FirstNumber(RemoveCommas(text.value))
  }
}

=== FILE: wrappers.dfy ===
/** Optional values, and the "was this dict key ever assigned?" distinction
    that a scraped item needs. */
module Wrappers {

  /** Python's `None` or a value. */
  datatype Option<+T> = None | Some(value: T) {

    /** The value, or `default` when there is none. */
    function GetOr(default: T): T {
      match this
      case Some(v) => v
      case None => default
    }
  }

  /** One key of a Python dict: either never assigned, or assigned a value
      (which may itself be `None` when `T` is an `Option`). */
  datatype Slot<+T> = Unassigned | Assigned(value: T) {

    /** `d.get(key, default)`. */
    function GetOr(default: T): T {
      match this
      case Assigned(v) => v
      case Unassigned => default
    }
  }

  /** `d.get(key)` on a key whose assigned values may be `None`: an
      unassigned key reads as `None` too. */
  function Get<T>(s: Slot<Option<T>>): Option<T> {
    match s
    case Assigned(v) => v
    case Unassigned => None
  }
}
